=== FILE: README.md ===
# Leffa virtual try-on: client session, backend glue and test polling, modelled in Dafny

This project models the in-repository logic of the Leffa virtual try-on demo. The try-on
model itself is an opaque call. What the repository adds around it is modelled here:

- **The React page** (`frontend/src/App.js`). It is modelled as one immutable `App.State`
  record with a pure handler per event. Pressing Generate returns the new state and the
  multipart form to post. The backend's answer arrives later as its own event.
  `App.Client` pairs the page with its outstanding request. `App.Dispatch` applies the
  `disabled` conditions of the controls.
- **The seed field** (`SeedText`). This is ECMAScript `parseInt` without a radix, followed
  by `|| 0`, together with the `String(n)` the field displays.
- **The FastAPI backend** (`api/server.py`, module `Server`). This covers:
  - data URI stripping in `decode_base64_image`;
  - the two try-on endpoints, with the validation and defaults of the `/try-on` JSON body and of the upload form;
  - the mapping from raised exceptions to HTTP statuses;
  - the load-once guard of `load_model`.
- **Data URIs** (`DataUri`). This is the `data:image/jpeg;base64,` prefix of section 2 of
  RFC 2397. It is put in front of base64 text whose alphabet (section 4 of RFC 4648) has
  no comma. It is taken apart again by Python's `split(',')`.
- **The placeholder server** (`api_server.py`, module `PlaceholderServer`). This covers the
  integer layout and paste of `create_simple_tryon`, the file names it writes and its
  reply.
- **The end-to-end script** (`test-leffa.js`, module `Readiness`). This covers the
  bounded retry loop of `isUrlResponding` and the output-file poll.
- **`Integration`**. The form the page posts is read by `/try-on/upload` as exactly the
  page's images and parameters. A backend reply reaches the page as the outcome its
  handler expects.

Library calls and I/O become parameters of the functions that use them:
- base64 decoding and `Image.open` (`decode`, `open`);
- inference together with its clock (`infer`);
- JPEG encoding (`encode`);
- `str(e)` (`describe`);
- PIL's resize (`resize`);
- `URL.createObjectURL`, `Math.random()` and `toFixed(2)`. These three arrive as fields
  of the page's events.

The code has none of the following, and neither does the model:
- no clamping of slider values;
- no re-entrancy guard inside `handleSubmit` (only the Generate button is disabled);
- no token for ignoring a stale response;
- no revocation of preview object URLs;
- no separate "failed" phase: a submit with a missing image only sets the error text.

Reset leaves `loading` and `processingTime` as they were. The drop zones are not disabled
while a request is in flight.

## Model

| member | source | states |
|---|---|---|
| App.HandleDrop | frontend/src/App.js:112-129 | A non-empty drop stores the first file in that slot, sets the preview to the object URL and clears the error. The other slot, the parameters, the result, `loading` and the banners stay unchanged. An absent or empty list changes nothing. |
| App.HandleSubmit | frontend/src/App.js:132-150 | With an image missing: the error becomes exactly the missing-images text, nothing else changes and no form is posted. Otherwise: `loading` is set; error, success and result are cleared; the inputs are unchanged; the posted form has exactly the six fields in order, each reading back as the current state value. |
| App.LookupSubmitForm | frontend/src/App.js:144-150 | Every field of the built form reads back, by name, as the value appended under it. |
| App.ErrorText | frontend/src/App.js:163 | The shown error is the backend's detail when present and non-empty, otherwise the fallback text. It is never empty. |
| App.HandleResponse | frontend/src/App.js:158-166 | Either outcome ends `loading` and keeps the slots and parameters. A reply stores `result_image` and `processing_time`, raises the success banner and leaves the error. A failure sets the error from the detail or the fallback and leaves the result, time and banner. |
| App.HandleReset | frontend/src/App.js:170-182 | Reset gives the initial state, except that `loading` and `processingTime` keep their values. |
| App.ResetIdempotent | frontend/src/App.js:170-182 | Resetting twice is the same as resetting once. |
| App.RandomSeed | frontend/src/App.js:186 | A random seed lies in [0, 999999]. |
| App.HandleRandomSeed | frontend/src/App.js:185-187 | Random changes only the seed, to a value in [0, 999999]. |
| App.EditSeed | frontend/src/App.js:311 | A seed edit changes only the seed, to `parseInt(text) || 0`. |
| App.SlideGuidance | frontend/src/App.js:272-276 | The guidance slider stores its value unclamped and changes nothing else. |
| App.SlideSteps | frontend/src/App.js:289-293 | The steps slider stores its value unclamped and changes nothing else. |
| App.ToggleAcceleration | frontend/src/App.js:337-339 | The switch stores `checked` and changes nothing else. |
| App.LoadingFreezesControls | frontend/src/App.js:278-364 | While loading, Generate, Reset, both sliders, the seed field, Random and the switch leave the state unchanged and post nothing. |
| App.GenerateButtonGate | frontend/src/App.js:354-355 | Through the page, Generate posts exactly when nothing is loading and both images are present. Otherwise it changes nothing, so the missing-images message is never produced by the button. |
| App.PreviewsMatchPreserved | frontend/src/App.js:95-182 | Each slot has a non-empty preview exactly when it holds an image. The initial state has this property and every handler preserves it. |
| App.SingleRequestInFlight | frontend/src/App.js:132-166 | Each event keeps the page consistent: a request is outstanding exactly while `loading`. A form is posted only when none is outstanding. A drop during a request leaves the posted form as it was. |
| App.AtMostOneInFlight | frontend/src/App.js:132-166 | Over any event sequence, consistency holds. Forms posted equal responses received, plus the outstanding one if any. |
| App.StartHasAtMostOneInFlight | frontend/src/App.js:138-165 | From the first render, posted minus answered is 0 or 1. It is 1 exactly while the page is loading. |
| SeedText.SeedTextRoundTrip | frontend/src/App.js:308-311 | Re-reading the text the field displays stores that same seed, for every integer of magnitude below 10^21 (the range `String` prints without an exponent). |
| SeedText.LeadingIntegerIsStored | frontend/src/App.js:311 | After leading white space, the leading run of decimal digits is stored; trailing non-digits are ignored. The exception is digits `0` followed by `x` or `X`, which are read as hexadecimal. |
| SeedText.LeadingNegativeIntegerIsStored | frontend/src/App.js:311 | With a minus sign before the digits, the negated value is stored. |
| SeedText.NoDigitsGivesZero | frontend/src/App.js:311 | A text with no digit (the empty text among them) parses to NaN, so 0 is stored. |
| DataUri.JoinSplit | api/server.py:55 | Joining the pieces of a split with the separator gives back the string. |
| DataUri.SplitJoin | api/server.py:55 | Splitting a join of separator-free pieces gives back the pieces. |
| DataUri.Payload | api/server.py:55 | A string without a comma is passed whole. Otherwise the text is the comma-free piece between the first comma and the next comma (or the end). |
| DataUri.PayloadOfJpegUri | api/server.py:186-190 | Stripping `data:image/jpeg;base64,` from a data URI gives back any comma-free body. |
| DataUri.Base64RoundTrip | api/server.py:52-65 | A base64 body is recovered both from its data URI and when sent bare. |
| DataUri.JpegUri | api/server.py:190 | The data URI begins with the JPEG prefix, and the body follows it. |
| Server.DecodeBase64Image | api/server.py:52-59 | Decoding succeeds exactly when the decoder accepts the stripped text. Any failure is the 400 fault with detail "Invalid image data". |
| Server.DecodeIgnoresJpegPrefix | api/server.py:55 | A base64 body decodes the same with or without the data URI prefix. |
| Server.VirtualTryOn | api/server.py:113-156 | Succeeds exactly when inference does, with inference's result. A failure is re-raised as a 500 with the "Error during virtual try-on: " detail. |
| Server.ResponseBody | api/server.py:189-192 | A reply body has exactly the keys `result_image` and `processing_time`, holding the reply's image text and time. |
| Server.AsServerError | api/server.py:193-195 | The blanket handler passes successes through and turns every fault into a 500 with `str(e)` as its detail. |
| Server.TryOn | api/server.py:168-195 | Every failure raised inside the handler is a 500. An undecodable person or garment image gives a 500 with `str` of the 400 fault. An inference failure gives a 500 with `str` of the "Error during virtual try-on: " fault, and an encoding failure a 500 with `str` of that error. With both images decoded and inference and encoding succeeding, the reply is the encoder's body as a JPEG data URI and inference's time. |
| Server.TryOnPassingHttpFaults | api/server.py:171-195 | Corrected `/try-on`: an undecodable person or garment image answers 400 "Invalid image data". Every other failure is a 500. It succeeds exactly when the original does, with the same reply. |
| Server.TryOnNeverAnswers400 | api/server.py:193-195 | For an undecodable person or garment image, `/try-on` as written answers 500, where the corrected handler answers 400. |
| Server.ParseTryOnBody | api/server.py:40-46 | A body is accepted exactly when both images are texts and every present setting is of its kind. Missing or mistyped images fail validation naming the person image first, then the garment image; otherwise the first offending setting is named. An accepted body is read as its two texts and its settings. |
| Server.ImagesOnlyTakeDefaults | api/server.py:43-46 | A body carrying only the two images is read with guidance 2.5, 30 steps, seed 42 and no reference acceleration. |
| Server.TryOnEndpoint | api/server.py:168-171 | A body that fails validation is answered 422 with its validation fault, before the handler runs. A valid body gets the handler's answer. A failure is a 422 exactly when the body is invalid, and otherwise a 500. |
| Server.ParseSettings | api/server.py:201-204 | The settings are accepted exactly when each is absent or of its kind, with an integer also accepted as the guidance scale. An absent setting takes its default, and a present one is read as given. Otherwise the first offending setting, in declaration order, is named. |
| Server.ParseUploadForm | api/server.py:197-205 | A form is accepted exactly when both files are present as files and every present setting is of its kind. A missing or non-file person image is named first, then the garment image, then the first offending setting. An accepted form is read as its two files and its settings, with `Form` defaults for absent ones. |
| Server.FilesOnlyTakeDefaults | api/server.py:201-204 | A form carrying only the two files is read with every setting at its `Form` default. |
| Server.ParseWellTypedForm | api/server.py:197-205 | A form whose six parameters are all present with values of the declared kinds passes validation and is read as exactly those values. |
| Server.TryOnUpload | api/server.py:197-239 | A failure is a 422 exactly when the form is malformed, and otherwise a 500. For a well-formed form the 500 carries the first error in the order: save the person, save the garment, open the person, open the garment. A garment that cannot be saved is therefore reported even when the person image would not open. It succeeds exactly when both uploads are saved, both saved files open, and inference and encoding succeed. The reply is then the encoder's body as a JPEG data URI and inference's time. |
| Server.UploadResultDecodesToBody | api/server.py:231-236 | When the encoder emits base64, the returned `result_image`, once stripped, is exactly the encoder's body for the generated image. |
| Server.LoadModel | api/server.py:76-111 | A call with the model already set changes nothing. Otherwise all three globals are set exactly when all three constructors succeed. A failure is a 500. A failing model constructor leaves the globals untouched. A later failure keeps what was already assigned: the model, and the inference object once it is built. A failure never sets the transform. |
| Server.LoadModelIdempotent | api/server.py:80-81 | Once the model is set, any number of further `load_model` calls change nothing. |
| Server.PartialLoadSticks | api/server.py:99-111 | Suppose the model is built but the inference wrapper fails. Then the model stays set and the inference wrapper stays unset, later calls change nothing, and `/health` reports the model as loaded. |
| Multipart.Lookup | api/server.py:197-204 | A parameter is absent exactly when no field of the form has its name. |
| Multipart.LookupIsLastField | api/server.py:197-204 | A value read for a parameter is that of a field with its name, after which no field has that name: a later field overrides an earlier one. |
| Multipart.LookupDistinct | api/server.py:197-204 | In a form whose field names are all different, each name reads back as its own field's value. |
| Integration.SubmitFieldsAreUploadParameters | frontend/src/App.js:144-150 | The page appends exactly the parameter names the upload endpoint declares, in the same order. |
| Integration.DefaultsAgree | api/server.py:43-46 | A client sending only the two images gets the page's initial parameters, which reset restores, from both the `/try-on` body model and the upload form. |
| Integration.SubmittedFormParses | api/server.py:197-204 | The form posted by Generate passes validation and is read as the page's two files and four parameters, unchanged. |
| Integration.ToOutcome | frontend/src/App.js:158-163 | The page reads `result_image` and `processing_time` from the JSON reply, which are the reply's two fields. A fault reaches it as its detail. |
| Integration.RoundTrip | frontend/src/App.js:152-165 | After one Generate round trip, loading is over and the inputs are unchanged. A success shows a JPEG data URI and no error. A failure is always the 500 of the handler's fault, never a 422; its detail, or the fallback, is shown. |
| PlaceholderServer.PlaceGarment | api_server.py:92-101 | The garment is half the width, rounded down, and never overflows horizontally. It is centred, with the right margin equal to the left or one pixel larger. `paste_y` is a third of the height, rounded down, and lies inside a non-empty picture. |
| PlaceholderServer.PasteRow | api_server.py:105 | A pasted row keeps its length. It shows the piece from column x on, clipped at the row's end, and the original elsewhere. |
| PlaceholderServer.Paste | api_server.py:105 | Pasting keeps the base's size. Pixels under the patch show the patch, and all others keep their value. |
| PlaceholderServer.CreateSimpleTryOn | api_server.py:89-107 | It fails, with PIL's "height and width must be > 0", exactly when the person is narrower than two pixels or the scaled garment height is 0. Otherwise the composite has the person's dimensions and the garment's box lies inside horizontally. Pixels in the box show the resized garment, and all others show the person. |
| PlaceholderServer.DebugNames | api_server.py:59-61 | The debug inputs are named `human_` and `garment_` followed by the output file name. |
| PlaceholderServer.SavedNamesDiffer | api_server.py:52-61 | For every UUID, the output file and the two debug files have three different names. |
| PlaceholderServer.TryOnReply | api_server.py:70-78 | The message is "Try-on completed successfully". `image_data` is exactly the JPEG prefix followed by the body, and stripping it recovers a base64 body. `output_file` is the output directory followed by the result's name. |
| Readiness.IsUrlResponding | test-leffa.js:20-45 | At most `maxRetries` probes are made. The result is true exactly when one of the first `maxRetries` probes is ok; it returns at the first ok, after all earlier probes failed. A non-ok response and a throw count alike. False means all `maxRetries` probes were made. Waits number attempts − 1, with none after the last probe. |
| Readiness.IsUrlRespondingByDefault | test-leffa.js:153 | With the defaults 10 and 1000 ms, between 1 and 10 probes are made and at most 9000 ms are spent waiting. |
| Readiness.PollForOutput | test-leffa.js:216-234 | Between 1 and 10 existence checks are made, stopping at the first hit. Failure is reported exactly when all 10 checks missed. One 30000 ms wait follows every miss. |

## Left out

- JSX rendering, MUI styling, the theme, react-dropzone wiring and `frontend/src/index.js`: markup, no state logic.
- The `axios.post` transport, FastAPI routing, CORS, uvicorn, and the file writes of `api_server.py`: I/O. Saving an upload (`save_uploaded_file`, api/server.py:67-74) is the `save` parameter, and `Image.open` of the saved path is the `open` parameter.
- Server.TryOnUpload: the two `os.remove` calls (api/server.py:227-228) are not modelled and are taken to succeed. A removal that raises would make the source answer a 500 with the removal error after a successful inference. Temporary files left behind after a failure are not modelled either.
- LeffaModel/LeffaInference/LeffaTransform, `resize_and_center`, torch device choice, `simple_tryon.py` and `simple_ui.py`: foreign calls, represented by `infer` and the `Loader` outcomes.
- Base64 encoding and decoding themselves: library calls, represented by `decode` and `encode`. Only the prefix handling and the comma-free alphabet are modelled.
- `download-test-images.js`, Puppeteer process management and page driving, the duplicated `testLeffaApp()` call, and the Jest configuration: test harness.
- App.RandomSeed: computes with exact reals, not IEEE doubles. `Math.random()` is any value in [0, 1). Its distribution is not modelled.
- App.HandleResponse: the `toFixed(2)` text is supplied with the reply. A reply whose `processing_time` is not a number, which would make `toFixed` throw into the `catch`, is not modelled.
- App.State: `processingTime`, `guidanceScale` and the reply's `processing_time` are reals, not doubles.
- SeedText.ParseInt: reads arbitrarily long digit runs exactly. JavaScript rounds integers beyond 2^53.
- Server.ParseUploadForm: form values travel typed instead of as text. The browser's number-to-text conversion and FastAPI's text-to-number coercion are not modelled. A value of the wrong kind fails validation. FastAPI's 422 lists every offending parameter, while the model names only the first.
- Integration.ToOutcome: requires an `HTTPException`-shaped fault. A 422 validation reply carries a list as `detail`, which the page would store as its error. The page's own form never triggers a 422 (`Integration.SubmittedFormParses`), as long as the seed's magnitude stays below 10^21. Form values travel typed in this model.
- SeedText.SeedTextRoundTrip: holds only for seeds of magnitude below 10^21. From 10^21 on, `String` prints exponent notation: `String(1e21)` is `"1e+21"`, which `parseInt` reads back as 1. The field accepts such a seed when 22 digits are typed. The page would then post `"1e+21"`, which FastAPI's `int` parsing refuses with a 422. Number-to-text conversion is not modelled.
- Server.TryOn: the text of `str(e)` depends on the Starlette version, so it is the `describe` parameter. Body validation happens before the handler, in `Server.ParseTryOnBody` and `Server.TryOnEndpoint`. There, JSON values travel typed: pydantic's lax coercions are not modelled, such as numeric strings for numbers, or floats with no fraction for `int`. The 422 reply lists every offending field, while the model names the first.
- `virtual_try_on`'s keyword defaults (api/server.py:113) are not modelled. Both endpoints pass all four settings, so those defaults never take effect.
- PlaceholderServer.CreateSimpleTryOn: models the paste without a mask. An RGBA garment is alpha-blended by PIL, and that blend is not modelled. Pixels have one type, so the mode conversion `paste` applies to a garment of a different mode (`im.convert(self.mode)`) is abstracted away. The garment's new height comes from a float ratio and is a parameter. A zero-sized resize is modelled as a failure carrying PIL's `ValueError` text. The endpoint wraps that as a 500 "Error processing images: …" (api_server.py:80-82), and that wrapping is not modelled.
- Readiness.IsUrlResponding: console output and actual sleeping are left out; waits are counted. The 5000 ms fetch timeout is folded into the `Threw` outcome.
- `load_model` is called only from the startup hook. The partial state of `Server.PartialLoadSticks` would normally stop the server at startup, so it is reported as behaviour, not as a defect.

## Findings

| source | as written | input that shows it | evidently intended | confidence | as-written member | corrected member |
|---|---|---|---|---|---|---|
| api/server.py:193-195 | `/try-on` catches every exception, including the `HTTPException(400, "Invalid image data")` raised by `decode_base64_image`, and re-raises it as a 500 | a `/try-on` body whose `human_image` is not base64 image data, e.g. `"abc"` | the client receives 400 "Invalid image data" | medium, not executed | Server.TryOnNeverAnswers400 | Server.TryOnPassingHttpFaults |

=== FILE: app.dfy ===
/** The try-on page of frontend/src/App.js as one immutable session record and a pure
    transition per event. The one `await` of `handleSubmit` splits it in two: pressing
    Generate returns the new state and the outgoing form, and the backend's answer arrives
    later as its own event. What the browser supplies (the object URL of a dropped file,
    `Math.random()`, the `toFixed(2)` text of a time) arrives as part of the event. */
module App {
  import opened Wrappers
  import Multipart
  import SeedText

  /** What `URL.createObjectURL` returns: a non-empty `blob:` URL. */
  type ObjectUrl = s: string | |s| > 0 witness "blob:"

  /** A value of `Math.random()`. */
  type UnitDraw = r: real | 0.0 <= r < 1.0 witness 0.0

  /** The four generation parameters of the form. */
  datatype Params = Params(guidanceScale: real, inferenceSteps: int, seed: int, refAcceleration: bool)

  /** The component's state hooks. An empty string is the "nothing" of the text fields. */
  datatype State = State(
    humanImage: Option<Multipart.File>,
    humanPreview: string,
    garmentImage: Option<Multipart.File>,
    garmentPreview: string,
    resultImage: string,
    loading: bool,
    error: string,
    success: string,
    processingTime: real,
    params: Params)

  /** The state on first render. */
  function Initial(): State
  {
    State(None, "", None, "", "", false, "", "", 0.0, Params(2.5, 30, 42, false))
  }

  const MissingImagesMessage: string := "Please upload both a human image and a garment image"
  const FallbackMessage: string := "Something went wrong. Please try again."

  datatype Slot = Human | Garment

  /** How the posted request ended: a 2xx reply with its two fields (and the text
      `toFixed(2)` makes of the time), or a rejection carrying `err.response?.data?.detail`
      (`None` when there was no response, no body or no detail). */
  datatype Outcome =
    | Delivered(resultImage: string, processingTime: real, fixed2: string)
    | Rejected(detail: Option<string>)

  datatype Event =
    | Dropped(slot: Slot, files: Option<seq<Multipart.File>>, url: ObjectUrl)
    | GeneratePressed
    | ResponseArrived(outcome: Outcome)
    | ResetPressed
    | RandomPressed(draw: UnitDraw)
    | SeedEdited(text: string)
    | GuidanceSlid(guidance: real)
    | StepsSlid(steps: int)
    | AccelerationToggled(checked: bool)

  /** The state after an event and the form posted by it, if any. */
  datatype Step = Step(state: State, request: Option<Multipart.Form>)

  /** The two slots, the parameters and the result are all as before. */
  predicate SameInputs(s: State, r: State)
  {
    && r.humanImage == s.humanImage && r.humanPreview == s.humanPreview
    && r.garmentImage == s.garmentImage && r.garmentPreview == s.garmentPreview
    && r.params == s.params
  }

  /** `handleHumanDrop` / `handleGarmentDrop`: a non-empty list puts its first file in the
      slot, with the object URL as preview, and clears the error; anything else is ignored. */
  function HandleDrop(s: State, slot: Slot, files: Option<seq<Multipart.File>>, url: ObjectUrl): (r: State)
    ensures files.None? || |files.value| == 0 ==> r == s
    ensures files.Some? && |files.value| > 0 ==>
      && r.error == ""
      && (slot == Human ==>
            && r.humanImage == Some(files.value[0]) && r.humanPreview == url
            && r.garmentImage == s.garmentImage && r.garmentPreview == s.garmentPreview)
      && (slot == Garment ==>
            && r.garmentImage == Some(files.value[0]) && r.garmentPreview == url
            && r.humanImage == s.humanImage && r.humanPreview == s.humanPreview)
      && r.params == s.params && r.resultImage == s.resultImage && r.success == s.success
      && r.loading == s.loading && r.processingTime == s.processingTime
  {
    if files.Some? && |files.value| > 0 then
      match slot
      case Human => s.(humanImage := Some(files.value[0]), humanPreview := url, error := "")
      case Garment => s.(garmentImage := Some(files.value[0]), garmentPreview := url, error := "")
    else s
  }

  /** The field names `handleSubmit` appends, in order. */
  const SubmitFields: seq<string> :=
    ["human_image", "garment_image", "guidance_scale", "num_inference_steps", "seed", "ref_acceleration"]

  /** The `FormData` built by `handleSubmit`. */
  function SubmitForm(human: Multipart.File, garment: Multipart.File, p: Params): Multipart.Form
  {
    [ Multipart.Field("human_image", Multipart.FileValue(human)),
      Multipart.Field("garment_image", Multipart.FileValue(garment)),
      Multipart.Field("guidance_scale", Multipart.RealValue(p.guidanceScale)),
      Multipart.Field("num_inference_steps", Multipart.IntValue(p.inferenceSteps)),
      Multipart.Field("seed", Multipart.IntValue(p.seed)),
      Multipart.Field("ref_acceleration", Multipart.BoolValue(p.refAcceleration)) ]
  }

  /** The synchronous part of `handleSubmit`, up to the `await`. */
  function HandleSubmit(s: State): (r: Step)
    ensures s.humanImage.None? || s.garmentImage.None? ==>
      r.request.None? && r.state == s.(error := MissingImagesMessage)
    ensures s.humanImage.Some? && s.garmentImage.Some? ==>
      && r.state.loading && r.state.error == "" && r.state.success == "" && r.state.resultImage == ""
      && SameInputs(s, r.state) && r.state.processingTime == s.processingTime
      && r.request.Some?
      && Multipart.Names(r.request.value) == SubmitFields
      && Multipart.Lookup(r.request.value, "human_image") == Some(Multipart.FileValue(s.humanImage.value))
      && Multipart.Lookup(r.request.value, "garment_image") == Some(Multipart.FileValue(s.garmentImage.value))
      && Multipart.Lookup(r.request.value, "guidance_scale") == Some(Multipart.RealValue(s.params.guidanceScale))
      && Multipart.Lookup(r.request.value, "num_inference_steps") == Some(Multipart.IntValue(s.params.inferenceSteps))
      && Multipart.Lookup(r.request.value, "seed") == Some(Multipart.IntValue(s.params.seed))
      && Multipart.Lookup(r.request.value, "ref_acceleration") == Some(Multipart.BoolValue(s.params.refAcceleration))
  {
    if s.humanImage.None? || s.garmentImage.None? then
      Step(s.(error := MissingImagesMessage), None)
    else
      var form := SubmitForm(s.humanImage.value, s.garmentImage.value, s.params);
      LookupSubmitForm(s.humanImage.value, s.garmentImage.value, s.params);
      Step(s.(loading := true, error := "", success := "", resultImage := ""), Some(form))
  }

  /** Each field of the submitted form reads back as the value appended under its name. */
  lemma LookupSubmitForm(human: Multipart.File, garment: Multipart.File, p: Params)
    ensures var form := SubmitForm(human, garment, p);
      && Multipart.Names(form) == SubmitFields
      && Multipart.Lookup(form, "human_image") == Some(Multipart.FileValue(human))
      && Multipart.Lookup(form, "garment_image") == Some(Multipart.FileValue(garment))
      && Multipart.Lookup(form, "guidance_scale") == Some(Multipart.RealValue(p.guidanceScale))
      && Multipart.Lookup(form, "num_inference_steps") == Some(Multipart.IntValue(p.inferenceSteps))
      && Multipart.Lookup(form, "seed") == Some(Multipart.IntValue(p.seed))
      && Multipart.Lookup(form, "ref_acceleration") == Some(Multipart.BoolValue(p.refAcceleration))
  {
    var form := SubmitForm(human, garment, p);
    assert Multipart.Names(form) == SubmitFields;
    forall i | 0 <= i < |form|
      ensures Multipart.Lookup(form, form[i].name) == Some(form[i].value)
    {
      Multipart.LookupDistinct(form, i);
    }
    assert form[0].name == "human_image" && form[1].name == "garment_image";
    assert form[2].name == "guidance_scale" && form[3].name == "num_inference_steps";
    assert form[4].name == "seed" && form[5].name == "ref_acceleration";
  }

  /** The error shown for a failed request: `detail || 'Something went wrong...'`. */
  function ErrorText(detail: Option<string>): (t: string)
    ensures t != ""
    ensures detail.Some? && detail.value != "" ==> t == detail.value
    ensures detail.None? || detail.value == "" ==> t == FallbackMessage
  {
    if detail.Some? && detail.value != "" then detail.value else FallbackMessage
  }

  /** The text of the success banner. */
  function SuccessText(fixed2: string): string
  {
    "Processing completed in " + fixed2 + " seconds"
  }

  /** The part of `handleSubmit` after the `await`: a reply stores the result image and the
      time and raises the success banner; a failure shows the backend's detail or the
      fallback text; either way loading ends and nothing the user entered changes. */
  function HandleResponse(s: State, o: Outcome): (r: State)
    ensures !r.loading && SameInputs(s, r)
    ensures o.Delivered? ==>
      && r.resultImage == o.resultImage && r.processingTime == o.processingTime
      && r.success == SuccessText(o.fixed2) && r.error == s.error
    ensures o.Rejected? ==>
      && r.error == ErrorText(o.detail)
      && r.resultImage == s.resultImage && r.processingTime == s.processingTime && r.success == s.success
  {
    match o
    case Delivered(image, time, fixed2) =>
      s.(resultImage := image, processingTime := time, success := SuccessText(fixed2), loading := false)
    case Rejected(detail) =>
      s.(error := ErrorText(detail), loading := false)
  }

  /** `handleReset`: both slots, the result and both banners are cleared and the parameters
      return to their initial values; `loading` and `processingTime` are not touched. */
  function HandleReset(s: State): (r: State)
    ensures r == Initial().(loading := s.loading, processingTime := s.processingTime)
  {
    State(None, "", None, "", "", s.loading, "", "", s.processingTime, Params(2.5, 30, 42, false))
  }

  /** Resetting twice is resetting once. */
  lemma ResetIdempotent(s: State)
    ensures HandleReset(HandleReset(s)) == HandleReset(s)
  {
  }

  /** `Math.floor(Math.random() * 1000000)`. */
  function RandomSeed(draw: UnitDraw): (seed: int)
    ensures 0 <= seed <= 999999
  {
    (draw * 1000000.0).Floor
  }

  /** Every edit that touches one parameter leaves the rest of the state alone. */
  predicate OnlyParamsChanged(s: State, r: State)
  {
    r == s.(params := r.params)
  }

  /** The Random button. */
  function HandleRandomSeed(s: State, draw: UnitDraw): (r: State)
    ensures OnlyParamsChanged(s, r) && 0 <= r.params.seed <= 999999
    ensures r.params == s.params.(seed := r.params.seed)
  {
    s.(params := s.params.(seed := RandomSeed(draw)))
  }

  /** The seed field's `onChange`. */
  function EditSeed(s: State, text: string): (r: State)
    ensures OnlyParamsChanged(s, r) && r.params == s.params.(seed := r.params.seed)
    ensures r.params.seed == SeedText.SeedFromText(text)
  {
    s.(params := s.params.(seed := SeedText.SeedFromText(text)))
  }

  /** The guidance slider's `onChange`: the value is stored as given, without clamping. */
  function SlideGuidance(s: State, value: real): (r: State)
    ensures OnlyParamsChanged(s, r) && r.params == s.params.(guidanceScale := value)
  {
    s.(params := s.params.(guidanceScale := value))
  }

  /** The steps slider's `onChange`: the value is stored as given, without clamping. */
  function SlideSteps(s: State, value: int): (r: State)
    ensures OnlyParamsChanged(s, r) && r.params == s.params.(inferenceSteps := value)
  {
    s.(params := s.params.(inferenceSteps := value))
  }

  /** The acceleration switch's `onChange`. */
  function ToggleAcceleration(s: State, checked: bool): (r: State)
    ensures OnlyParamsChanged(s, r) && r.params == s.params.(refAcceleration := checked)
  {
    s.(params := s.params.(refAcceleration := checked))
  }

  /** The handler an event runs, called directly. */
  function Handle(s: State, e: Event): Step
  {
    match e
    case Dropped(slot, files, url) => Step(HandleDrop(s, slot, files, url), None)
    case GeneratePressed => HandleSubmit(s)
    case ResponseArrived(o) => Step(HandleResponse(s, o), None)
    case ResetPressed => Step(HandleReset(s), None)
    case RandomPressed(draw) => Step(HandleRandomSeed(s, draw), None)
    case SeedEdited(text) => Step(EditSeed(s, text), None)
    case GuidanceSlid(v) => Step(SlideGuidance(s, v), None)
    case StepsSlid(v) => Step(SlideSteps(s, v), None)
    case AccelerationToggled(c) => Step(ToggleAcceleration(s, c), None)
  }

  /** Whether the control behind a user event is enabled: Generate needs both images and no
      request in flight; Reset, both sliders, the seed field, Random and the switch are
      disabled while loading; the drop zones have no `disabled` at all. */
  predicate Enabled(s: State, e: Event)
  {
    match e
    case Dropped(_, _, _) => true
    case GeneratePressed => !s.loading && s.humanImage.Some? && s.garmentImage.Some?
    case ResponseArrived(_) => true
    case _ => !s.loading
  }

  /** An event as the rendered page delivers it: a disabled control does nothing. */
  function Dispatch(s: State, e: Event): Step
  {
    if Enabled(s, e) then Handle(s, e) else Step(s, None)
  }

  /** While a request is in flight, only drops and the response change the state. */
  lemma LoadingFreezesControls(s: State, e: Event)
    requires s.loading && !e.Dropped? && !e.ResponseArrived?
    ensures Dispatch(s, e) == Step(s, None)
  {
  }

  /** Pressing Generate on the page posts a form exactly when both images are present and
      nothing is loading; the missing-images message is never produced that way. */
  lemma GenerateButtonGate(s: State)
    ensures Dispatch(s, GeneratePressed).request.Some? <==>
      !s.loading && s.humanImage.Some? && s.garmentImage.Some?
    ensures Dispatch(s, GeneratePressed).request.None? ==> Dispatch(s, GeneratePressed).state == s
  {
  }

  /** A slot shows a preview exactly when it holds an image. */
  predicate PreviewsMatch(s: State)
  {
    && (s.humanImage.Some? <==> s.humanPreview != "")
    && (s.garmentImage.Some? <==> s.garmentPreview != "")
  }

  /** The initial state and every handler keep previews and images in step. */
  lemma PreviewsMatchPreserved(s: State, e: Event)
    requires PreviewsMatch(s)
    ensures PreviewsMatch(Initial())
    ensures PreviewsMatch(Handle(s, e).state)
  {
  }

  /** The page together with the request it has posted and not yet heard back from. */
  datatype Client = Client(app: State, pending: Option<Multipart.Form>)

  function Start(): Client
  {
    Client(Initial(), None)
  }

  /** A request is outstanding exactly while the page shows it is loading. */
  predicate Consistent(c: Client)
  {
    PreviewsMatch(c.app) && (c.pending.Some? <==> c.app.loading)
  }

  /** One event as it happens: a response belongs to the outstanding request (there is none
      without one); a user event goes through the enabled controls and may post a form. */
  function Advance(c: Client, e: Event): Client
  {
    if e.ResponseArrived? then
      if c.pending.Some? then Client(HandleResponse(c.app, e.outcome), None) else c
    else
      var st := Dispatch(c.app, e);
      Client(st.state, if st.request.Some? then st.request else c.pending)
  }

  /** Whether the event posts a form. */
  predicate Posts(c: Client, e: Event)
  {
    !e.ResponseArrived? && Dispatch(c.app, e).request.Some?
  }

  /** Whether the event consumes the outstanding request. */
  predicate Answers(c: Client, e: Event)
  {
    e.ResponseArrived? && c.pending.Some?
  }

  /** A form is posted only when none is outstanding, and a drop in the meantime does not
      change the form already posted. */
  lemma SingleRequestInFlight(c: Client, e: Event)
    requires Consistent(c)
    ensures Consistent(Advance(c, e))
    ensures Posts(c, e) ==> c.pending.None? && Advance(c, e).pending.Some?
    ensures e.Dropped? ==> Advance(c, e).pending == c.pending
  {
  }

  /** The client after a sequence of events. */
  function Run(c: Client, trace: seq<Event>): Client
    decreases |trace|
  {
    if |trace| == 0 then c else Run(Advance(c, trace[0]), trace[1..])
  }

  /** How many forms the sequence of events posts. */
  function Posted(c: Client, trace: seq<Event>): nat
    decreases |trace|
  {
    if |trace| == 0 then 0
    else (if Posts(c, trace[0]) then 1 else 0) + Posted(Advance(c, trace[0]), trace[1..])
  }

  /** How many responses the sequence of events delivers. */
  function Answered(c: Client, trace: seq<Event>): nat
    decreases |trace|
  {
    if |trace| == 0 then 0
    else (if Answers(c, trace[0]) then 1 else 0) + Answered(Advance(c, trace[0]), trace[1..])
  }

  /** Over any sequence of events from the first render, the page stays consistent and the
      forms posted exceed the responses received by one while loading and by none otherwise:
      there is never more than one request in flight. */
  lemma {:induction false} AtMostOneInFlight(c: Client, trace: seq<Event>)
    requires Consistent(c)
    ensures Consistent(Run(c, trace))
    ensures Posted(c, trace) + (if c.pending.Some? then 1 else 0)
         == Answered(c, trace) + (if Run(c, trace).pending.Some? then 1 else 0)
    decreases |trace|
  {
    if |trace| > 0 {
      SingleRequestInFlight(c, trace[0]);
      AtMostOneInFlight(Advance(c, trace[0]), trace[1..]);
    }
  }

  /** From the first render: in flight is the difference of posted and answered, at most one. */
  lemma StartHasAtMostOneInFlight(trace: seq<Event>)
    ensures Answered(Start(), trace) <= Posted(Start(), trace) <= Answered(Start(), trace) + 1
    ensures Run(Start(), trace).app.loading <==> Posted(Start(), trace) == Answered(Start(), trace) + 1
  {
    AtMostOneInFlight(Start(), trace);
  }
}

=== FILE: data_uri.dfy ===
/** Data URIs of the form `data:image/jpeg;base64,<body>` (section 2 of RFC 2397) and the
    comma split the backend uses to take such a URI apart again. */
module DataUri {

  /** The prefix both backends put in front of a base64 JPEG body. */
  const JpegPrefix: string := "data:image/jpeg;base64,"

  /** Position of the first occurrence of `c` in `s`. */
  function IndexOf(s: string, c: char): (i: nat)
    requires c in s
    ensures i < |s| && s[i] == c && c !in s[..i]
  {
    if s[0] == c then 0
    else
      var i := 1 + IndexOf(s[1..], c);
      assert s[1..][..i - 1] == s[1..i];
      i
  }

  /** Python's `s.split(sep)` for a one-character separator: the pieces between the
      separators, left to right; a string without `sep` is one piece. */
  function Split(s: string, sep: char): (parts: seq<string>)
    ensures |parts| >= 1
    ensures forall k :: 0 <= k < |parts| ==> sep !in parts[k]
    decreases |s|
  {
    if sep !in s then [s]
    else
      var i := IndexOf(s, sep);
      [s[..i]] + Split(s[i + 1..], sep)
  }

  /** Python's `sep.join(parts)` for a one-character separator. */
  function Join(parts: seq<string>, sep: char): string
    requires |parts| >= 1
  {
    if |parts| == 1 then parts[0] else parts[0] + [sep] + Join(parts[1..], sep)
  }

  /** Splitting and joining again gives back the original string. */
  lemma {:induction false} JoinSplit(s: string, sep: char)
    ensures Join(Split(s, sep), sep) == s
    decreases |s|
  {
    if sep in s {
      var i := IndexOf(s, sep);
      JoinSplit(s[i + 1..], sep);
      assert Split(s, sep)[1..] == Split(s[i + 1..], sep);
      assert s == s[..i] + [sep] + s[i + 1..];
    }
  }

  /** The first separator of `a + [c] + b` is the one after `a` when `a` has none. */
  lemma {:induction false} IndexOfAppend(a: string, c: char, b: string)
    requires c !in a
    ensures IndexOf(a + [c] + b, c) == |a|
  {
    if |a| > 0 {
      assert (a + [c] + b)[1..] == a[1..] + [c] + b;
      IndexOfAppend(a[1..], c, b);
    }
  }

  /** Splitting `a + [sep] + b` with `a` separator-free cuts off `a` as the first piece. */
  lemma SplitCons(a: string, sep: char, b: string)
    requires sep !in a
    ensures Split(a + [sep] + b, sep) == [a] + Split(b, sep)
  {
    var s := a + [sep] + b;
    IndexOfAppend(a, sep, b);
    assert s[..|a|] == a;
    assert s[|a| + 1..] == b;
  }

  /** One step of `SplitJoin`: the first piece of a join comes back first. */
  lemma SplitJoinStep(parts: seq<string>, sep: char)
    requires |parts| > 1 && sep !in parts[0]
    ensures Split(Join(parts, sep), sep) == [parts[0]] + Split(Join(parts[1..], sep), sep)
  {
    SplitCons(parts[0], sep, Join(parts[1..], sep));
  }

  /** Splitting a string built by joining separator-free pieces gives back those pieces. */
  lemma {:induction false} SplitJoin(parts: seq<string>, sep: char)
    requires |parts| >= 1
    requires forall k :: 0 <= k < |parts| ==> sep !in parts[k]
    ensures Split(Join(parts, sep), sep) == parts
    decreases |parts|
  {
    if |parts| > 1 {
      SplitJoinStep(parts, sep);
      SplitJoin(parts[1..], sep);
      assert [parts[0]] + parts[1..] == parts;
    }
  }

  /** The text `decode_base64_image` hands to the base64 decoder: for input with a comma,
      the second comma-separated piece; otherwise the whole input. */
  function Payload(encoded: string): (p: string)
    ensures ',' !in encoded ==> p == encoded
    ensures ',' in encoded ==>
      var i := IndexOf(encoded, ',');
      && ',' !in p
      && p <= encoded[i + 1..]
      && (|p| == |encoded| - i - 1 || encoded[i + 1 + |p|] == ',')
  {
    if ',' in encoded then
      var i := IndexOf(encoded, ',');
      FirstPiece(encoded[i + 1..]);
      Split(encoded, ',')[1]
    else encoded
  }

  /** The first piece of a comma split is the longest comma-free prefix. */
  lemma FirstPiece(t: string)
    ensures var p := Split(t, ',')[0];
      && p <= t
      && (|p| == |t| || t[|p|] == ',')
  {
  }

  /** A character of the base64 alphabet of section 4 of RFC 4648, padding included. */
  predicate IsBase64Char(c: char)
  {
    || ('A' <= c <= 'Z')
    || ('a' <= c <= 'z')
    || ('0' <= c <= '9')
    || c == '+' || c == '/' || c == '='
  }

  predicate IsBase64(body: string)
  {
    forall k :: 0 <= k < |body| ==> IsBase64Char(body[k])
  }

  /** The base64 alphabet has no comma. */
  lemma Base64HasNoComma(body: string)
    requires IsBase64(body)
    ensures ',' !in body
  {
  }

  /** A JPEG data URI of a body. */
  function JpegUri(body: string): (uri: string)
    ensures JpegPrefix <= uri && uri[|JpegPrefix|..] == body
  {
    JpegPrefix + body
  }

  /** Stripping the data URI prefix recovers any comma-free body. */
  lemma {:induction false} PayloadOfJpegUri(body: string)
    requires ',' !in body
    ensures Payload(JpegUri(body)) == body
  {
    var uri := JpegUri(body);
    assert uri == JpegPrefix[..22] + [','] + body;
    IndexOfAppend(JpegPrefix[..22], ',', body);
    assert uri[23..] == body;
  }

  /** The base64 body a backend wraps in a data URI is exactly what the decoder receives
      when that URI is sent back; a bare base64 body is passed through whole. */
  lemma Base64RoundTrip(body: string)
    requires IsBase64(body)
    ensures Payload(JpegUri(body)) == body
    ensures Payload(body) == body
  {
    Base64HasNoComma(body);
    PayloadOfJpegUri(body);
  }
}

=== FILE: integration.dfy ===
/** How the page and the backend fit together: the form the page posts is read by
    `/try-on/upload` as exactly the page's images and parameters, both sides start from the
    same defaults, and the backend's reply reaches the page as the outcome it handles. */
module Integration {
  import opened Wrappers
  import Multipart
  import DataUri
  import Server
  import App

  /** The settings the backend should run with for the page's parameters. */
  function SettingsOf(p: App.Params): Server.Settings
  {
    Server.Settings(p.guidanceScale, p.inferenceSteps, p.seed, p.refAcceleration)
  }

  /** The page appends exactly the parameters the upload endpoint declares, in order. */
  lemma SubmitFieldsAreUploadParameters()
    ensures App.SubmitFields == Server.UploadFormFields
  {
  }

  /** A client that sends only the two images gets the page's initial parameters (which
      reset restores) from either endpoint: the page, the `TryOnRequest` model and the
      upload form start from the same settings. */
  lemma DefaultsAgree(s: App.State, human: Multipart.File, garment: Multipart.File, humanText: string, garmentText: string)
    ensures Server.ParseUploadForm([Multipart.Field("human_image", Multipart.FileValue(human)),
                                    Multipart.Field("garment_image", Multipart.FileValue(garment))])
         == Success(Server.Upload(human, garment, SettingsOf(App.Initial().params)))
    ensures Server.ParseTryOnBody([Multipart.Field("human_image", Multipart.TextValue(humanText)),
                                   Multipart.Field("garment_image", Multipart.TextValue(garmentText))])
         == Success(Server.TryOnRequest(humanText, garmentText, SettingsOf(App.Initial().params)))
    ensures App.HandleReset(s).params == App.Initial().params
  {
    Server.FilesOnlyTakeDefaults(human, garment);
    Server.ImagesOnlyTakeDefaults(humanText, garmentText);
  }

  /** The form posted by Generate passes FastAPI's validation and is read as the page's two
      images and its four parameters, unchanged. */
  lemma SubmittedFormParses(s: App.State)
    requires s.humanImage.Some? && s.garmentImage.Some?
    ensures var form := App.HandleSubmit(s).request.value;
      Server.ParseUploadForm(form)
        == Success(Server.Upload(s.humanImage.value, s.garmentImage.value, SettingsOf(s.params)))
  {
    App.LookupSubmitForm(s.humanImage.value, s.garmentImage.value, s.params);
    Server.ParseWellTypedForm(App.SubmitForm(s.humanImage.value, s.garmentImage.value, s.params),
                              s.humanImage.value, s.garmentImage.value, SettingsOf(s.params));
  }

  /** The outcome the page's `catch`/success branch sees for a backend reply: the
      `result_image` and `processing_time` members of the JSON reply, or the fault's detail
      as `err.response.data.detail`. */
  function ToOutcome(r: Result<Server.TryOnResponse, Server.Fault>, fixed2: string): (o: App.Outcome)
    requires r.Failure? ==> r.error.HttpFault?
    ensures r.Success? ==> o == App.Delivered(r.value.resultImage, r.value.processingTime, fixed2)
    ensures r.Failure? ==> o == App.Rejected(Some(r.error.detail))
  {
    match r
    case Success(v) =>
      var body := Server.ResponseBody(v);
      App.Delivered(body["result_image"].s, body["processing_time"].n, fixed2)
    case Failure(e) => App.Rejected(Some(e.detail))
  }

  /** One round trip from the page to `/try-on/upload` and back: a success shows the
      backend's JPEG data URI and time; a failure is a 500 (never a validation error) whose
      detail is shown, or the fallback text when the detail is empty; loading ends and the
      user's images and parameters stay as they were. */
  lemma RoundTrip<Img>(s: App.State, save: Multipart.File -> Result<string, string>, open: string -> Result<Img, string>,
                       infer: (Img, Img, Server.Settings) -> Result<Server.Generated<Img>, string>,
                       encode: Img -> Result<string, string>, describe: Server.Fault -> string, fixed2: string)
    requires s.humanImage.Some? && s.garmentImage.Some?
    ensures var sent := App.HandleSubmit(s);
      var r := Server.TryOnUpload(sent.request.value, save, open, infer, encode, describe);
      && (r.Failure? ==>
            var u := Server.ParseUploadForm(sent.request.value).value;
            r.error == Server.HttpFault(500, describe(Server.UploadSteps(u, save, open, infer, encode).error)))
      && var after := App.HandleResponse(sent.state, ToOutcome(r, fixed2));
         && !after.loading
         && after.humanImage == s.humanImage && after.garmentImage == s.garmentImage
         && after.params == s.params
         && (r.Success? ==> DataUri.JpegPrefix <= after.resultImage && after.error == "")
         && (r.Failure? ==> after.error == App.ErrorText(Some(r.error.detail)) && after.resultImage == "")
  {
    SubmittedFormParses(s);
  }
}

=== FILE: multipart.dfy ===
/** The multipart form a browser posts, and the JSON object of a request body: named fields
    carrying files, text or scalar values. */
module Multipart {
  import opened Wrappers

  /** A file the user picked: its name and its bytes. */
  datatype File = File(name: string, bytes: seq<bv8>)

  /** A field value. Scalars keep their type here; the text form a browser sends and
      the coercion FastAPI applies on arrival are not modelled (they agree on these values). */
  datatype Value =
    | FileValue(file: File)
    | TextValue(text: string)
    | RealValue(r: real)
    | IntValue(i: int)
    | BoolValue(b: bool)

  datatype Field = Field(name: string, value: Value)

  type Form = seq<Field>

  /** A JSON object request body, read member by member like a form. */
  type JsonObject = Form

  /** The field names of a form, in the order they were appended. */
  function Names(form: Form): seq<string>
  {
    seq(|form|, i requires 0 <= i < |form| => form[i].name)
  }

  /** The value a server reads for `name`: absent when no field has that name, otherwise
      the value of the last field with that name (`LookupIsLastField`). */
  function Lookup(form: Form, name: string): (v: Option<Value>)
    ensures v.None? <==> name !in Names(form)
  {
    if |form| == 0 then None
    else if form[|form| - 1].name == name then
      assert Names(form)[|form| - 1] == name;
      Some(form[|form| - 1].value)
    else
      assert Names(form) == Names(form[..|form| - 1]) + [form[|form| - 1].name];
      Lookup(form[..|form| - 1], name)
  }

  /** A value read for `name` is that of a field named `name` after which no field has
      that name: a later field overrides an earlier one. */
  lemma {:induction false} LookupIsLastField(form: Form, name: string)
    ensures Lookup(form, name).Some? ==>
      exists i :: 0 <= i < |form| && form[i] == Field(name, Lookup(form, name).value)
        && forall j :: i < j < |form| ==> form[j].name != name
  {
    if |form| == 0 {
    } else if form[|form| - 1].name == name {
      var last := |form| - 1;
      assert form[last] == Field(name, Lookup(form, name).value);
    } else {
      var init := form[..|form| - 1];
      assert Lookup(form, name) == Lookup(init, name);
      LookupIsLastField(init, name);
      if Lookup(init, name).Some? {
        var i :| 0 <= i < |init| && init[i] == Field(name, Lookup(init, name).value)
          && forall j :: i < j < |init| ==> init[j].name != name;
        assert form[i] == init[i];
        assert forall j :: i < j < |form| ==> form[j].name != name by {
          forall j | i < j < |form| ensures form[j].name != name {
            if j < |init| { assert form[j] == init[j]; }
          }
        }
      }
    }
  }

  /** In a form whose field names differ, each name reads back as its own field's value. */
  lemma LookupDistinct(form: Form, i: int)
    requires 0 <= i < |form|
    requires forall j :: 0 <= j < |form| && j != i ==> form[j].name != form[i].name
    ensures Lookup(form, form[i].name) == Some(form[i].value)
  {
    var name := form[i].name;
    assert Names(form)[i] == name;
    LookupIsLastField(form, name);
    var k :| 0 <= k < |form| && form[k] == Field(name, Lookup(form, name).value)
      && forall j :: k < j < |form| ==> form[j].name != name;
    assert k == i;
  }
}

=== FILE: placeholder_server.dfy ===
/** The placeholder server of api_server.py: instead of a try-on model it pastes the
    garment, scaled to half the person's width, onto a copy of the person image, and
    answers with the file names it wrote and the result as a JPEG data URI. */
module PlaceholderServer {
  import opened Wrappers
  import DataUri

  /** A raster image: `height` rows of `width` pixels each. */
  datatype Picture<P> = Picture(width: nat, height: nat, rows: seq<seq<P>>)

  predicate Valid<P>(p: Picture<P>)
  {
    |p.rows| == p.height && forall i :: 0 <= i < |p.rows| ==> |p.rows[i]| == p.width
  }

  /** Where `create_simple_tryon` puts the garment. */
  datatype Layout = Layout(garmentWidth: nat, pasteX: nat, pasteY: nat)

  /** The integer layout of `create_simple_tryon` for a person image of the given size:
      the garment is half as wide (rounded down), never wider than the person, centred
      with the right margin equal to the left one or one pixel wider, and its top edge a
      third of the way down (rounded down), inside the picture whenever it has rows. */
  function PlaceGarment(width: nat, height: nat): (l: Layout)
    ensures l.garmentWidth * 2 <= width <= l.garmentWidth * 2 + 1
    ensures l.pasteX + l.garmentWidth <= width
    ensures var right := width - (l.pasteX + l.garmentWidth);
      right == l.pasteX || right == l.pasteX + 1
    ensures l.pasteY * 3 <= height <= l.pasteY * 3 + 2
    ensures l.pasteY <= height && (height > 0 ==> l.pasteY < height)
  {
    var garmentWidth := width / 2;
    Layout(garmentWidth, (width - garmentWidth) / 2, height / 3)
  }

  /** One row of a paste: the piece replaces the row's pixels from column `x` on, and what
      falls past the row's end is dropped. */
  function PasteRow<P>(row: seq<P>, piece: seq<P>, x: nat): (r: seq<P>)
    ensures |r| == |row|
    ensures forall j :: 0 <= j < |row| ==>
      r[j] == if x <= j < x + |piece| then piece[j - x] else row[j]
  {
    if x >= |row| then row
    else
      var k := if |piece| < |row| - x then |piece| else |row| - x;
      row[..x] + piece[..k] + row[x + k..]
  }

  /** `base.paste(patch, (x, y))` without a mask: the patch covers the pixels it lies on,
      clipped to the base; every other pixel keeps its value. */
  function Paste<P>(base: Picture<P>, patch: Picture<P>, x: nat, y: nat): (r: Picture<P>)
    requires Valid(base) && Valid(patch)
    ensures Valid(r) && r.width == base.width && r.height == base.height
    ensures forall i, j :: 0 <= i < base.height && 0 <= j < base.width ==>
      r.rows[i][j] ==
        if y <= i < y + patch.height && x <= j < x + patch.width then patch.rows[i - y][j - x]
        else base.rows[i][j]
  {
    Picture(base.width, base.height,
      seq(base.height, i requires 0 <= i < base.height =>
        if y <= i < y + patch.height then PasteRow(base.rows[i], patch.rows[i - y], x)
        else base.rows[i]))
  }

  /** The `ValueError` PIL's resize raises for a requested size with a zero side. */
  const EmptyResize: string := "height and width must be > 0"

  /** `create_simple_tryon`. The garment's new height comes from a float ratio and is taken
      as given; `resize` stands for PIL's resize of the garment image to a requested size,
      which refuses a zero width (a person narrower than two pixels) or a zero height.
      Otherwise the result has the person's size; inside the garment's box it shows the
      garment, which lies wholly inside the picture horizontally; elsewhere it shows the
      person. */
  function CreateSimpleTryOn<P>(human: Picture<P>, garmentHeight: nat, resize: (nat, nat) -> Picture<P>): (r: Result<Picture<P>, string>)
    requires Valid(human)
    requires var w := PlaceGarment(human.width, human.height).garmentWidth;
      w > 0 && garmentHeight > 0 ==>
        var g := resize(w, garmentHeight);
        Valid(g) && g.width == w && g.height == garmentHeight
    ensures r.Failure? <==> human.width < 2 || garmentHeight == 0
    ensures r.Failure? ==> r.error == EmptyResize
    ensures r.Success? ==>
      var c := r.value;
      var l := PlaceGarment(human.width, human.height);
      var g := resize(l.garmentWidth, garmentHeight);
      && Valid(c) && c.width == human.width && c.height == human.height
      && l.pasteX + l.garmentWidth <= human.width
      && Valid(g) && g.width == l.garmentWidth && g.height == garmentHeight
      && forall i, j :: 0 <= i < human.height && 0 <= j < human.width ==>
           c.rows[i][j] ==
             if l.pasteY <= i < l.pasteY + garmentHeight && l.pasteX <= j < l.pasteX + l.garmentWidth
             then g.rows[i - l.pasteY][j - l.pasteX]
             else human.rows[i][j]
  {
    var l := PlaceGarment(human.width, human.height);
    if l.garmentWidth == 0 || garmentHeight == 0 then Failure(EmptyResize)
    else
      var garment := resize(l.garmentWidth, garmentHeight);
      Success(Paste(human, garment, l.pasteX, l.pasteY))
  }

  /** The name the result is saved under, for a generated UUID. */
  function OutputFilename(id: string): string
  {
    "tryon_" + id + ".jpg"
  }

  /** The names the two inputs are saved under for debugging. */
  function DebugNames(output: string): (names: (string, string))
    ensures "human_" <= names.0 && names.0[6..] == output
    ensures "garment_" <= names.1 && names.1[8..] == output
  {
    ("human_" + output, "garment_" + output)
  }

  /** The three files one request writes never share a name, whatever the UUID. */
  lemma SavedNamesDiffer(id: string)
    ensures var out := OutputFilename(id);
      var (h, g) := DebugNames(out);
      h != out && g != out && h != g
  {
    var out := OutputFilename(id);
    var (h, g) := DebugNames(out);
    assert out[0] == 't' && h[0] == 'h' && g[0] == 'g';
  }

  /** The JSON reply of `/tryon`. */
  datatype Reply = Reply(message: string, outputFile: string, imageData: string)

  /** The message of a successful `/tryon` reply. */
  const SuccessMessage: string := "Try-on completed successfully"

  /** The reply for a result saved under `OutputFilename(id)` whose file reads back as the
      base64 text `body`: its data URI hands exactly that body back to a decoder that
      strips the prefix at the first comma. */
  function TryOnReply(id: string, body: string): (r: Reply)
    ensures r.message == SuccessMessage
    ensures r.imageData == DataUri.JpegUri(body)
    ensures DataUri.JpegPrefix <= r.imageData
    ensures DataUri.IsBase64(body) ==> DataUri.Payload(r.imageData) == body
    ensures "output/" <= r.outputFile && r.outputFile[7..] == OutputFilename(id)
  {
    var reply := Reply(SuccessMessage, "output/" + OutputFilename(id), DataUri.JpegUri(body));
    if DataUri.IsBase64(body) then DataUri.Base64RoundTrip(body); reply else reply
  }
}

=== FILE: readiness.dfy ===
/** The two polling loops of the end-to-end script test-leffa.js: `isUrlResponding`, which
    probes the app's URL until it answers, and the wait for the output file. Each fetch or
    existence check is abstracted to its outcome, supplied in order; the waits are counted
    rather than slept. */
module Readiness {

  /** The outcome of one `fetchWithTimeout`: a response with its `ok` flag, or a throw
      (a network error or the 5000 ms timeout rejecting first). */
  datatype Probe = Responded(ok: bool) | Threw

  /** Only an `ok` response ends the probing; a non-ok response and a throw both count as
      one failed attempt. */
  predicate Succeeds(p: Probe)
  {
    p.Responded? && p.ok
  }

  const DefaultMaxRetries: int := 10
  const DefaultRetryInterval: int := 1000

  /** `isUrlResponding(url, maxRetries, retryInterval)` given the outcomes of the probes it
      would make: it answers true at the first ok response and probes no further, false
      once `maxRetries` probes (none if `maxRetries` is not positive) have all failed; it
      waits `retryInterval` between two probes and never after the last one. */
  method IsUrlResponding(probes: seq<Probe>, maxRetries: int, retryInterval: int)
    returns (up: bool, attempts: nat, waits: nat, waited: int)
    requires maxRetries <= |probes|
    ensures attempts <= (if maxRetries > 0 then maxRetries else 0)
    ensures up <==> exists i :: 0 <= i < maxRetries && Succeeds(probes[i])
    ensures up ==> 1 <= attempts && Succeeds(probes[attempts - 1])
    ensures forall i :: 0 <= i < attempts - 1 ==> !Succeeds(probes[i])
    ensures !up ==> attempts == (if maxRetries > 0 then maxRetries else 0)
    ensures waits == (if attempts == 0 then 0 else attempts - 1)
    ensures waited == waits * retryInterval
  {
    up, attempts, waits, waited := false, 0, 0, 0;
    var retries := 0;
    while retries < maxRetries
      invariant retries == 0 || retries <= maxRetries
      invariant attempts == retries
      invariant forall i :: 0 <= i < retries ==> !Succeeds(probes[i])
      invariant waits == (if retries > 0 && retries >= maxRetries then retries - 1 else retries)
      invariant waited == waits * retryInterval
      decreases maxRetries - retries
    {
      attempts := attempts + 1;
      if Succeeds(probes[retries]) {
        up := true;
        return;
      }
      retries := retries + 1;
      if retries < maxRetries {
        waits := waits + 1;
        waited := waited + retryInterval;
      }
    }
  }

  /** The call `isUrlResponding('http://localhost:7860')` with the default 10 probes and
      1000 ms interval: at most 10 probes and 9000 ms of waiting. */
  method IsUrlRespondingByDefault(probes: seq<Probe>) returns (up: bool, attempts: nat, waited: int)
    requires DefaultMaxRetries <= |probes|
    ensures 1 <= attempts <= 10 && 0 <= waited <= 9000
    ensures waited == (attempts - 1) * 1000
    ensures up <==> exists i :: 0 <= i < 10 && Succeeds(probes[i])
  {
    var waits;
    up, attempts, waits, waited := IsUrlResponding(probes, DefaultMaxRetries, DefaultRetryInterval);
  }

  const MaxPollAttempts: int := 10

  /** Milliseconds waited after each miss of the output-file poll. */
  const PollInterval: int := 30000

  /** The output-file poll of `testLeffaApp`, given what each `fs.existsSync` would report:
      at most ten checks, a 30 s wait after each miss (the last one included), and failure
      reported exactly when all ten checks missed. */
  method PollForOutput(present: seq<bool>) returns (found: bool, checks: nat, waits: nat, waited: nat, reportedFailure: bool)
    requires MaxPollAttempts <= |present|
    ensures 1 <= checks <= MaxPollAttempts
    ensures found <==> exists i :: 0 <= i < MaxPollAttempts && present[i]
    ensures found ==> present[checks - 1]
    ensures forall i :: 0 <= i < checks - 1 ==> !present[i]
    ensures !found ==> checks == MaxPollAttempts
    ensures waits == (if found then checks - 1 else checks)
    ensures waited == waits * PollInterval
    ensures reportedFailure <==> forall i :: 0 <= i < MaxPollAttempts ==> !present[i]
  {
    var attempts := 0;
    found, checks, waits, waited := false, 0, 0, 0;
    while attempts < MaxPollAttempts
      invariant 0 <= attempts <= MaxPollAttempts
      invariant checks == attempts && waits == attempts && !found
      invariant waited == waits * PollInterval
      invariant forall i :: 0 <= i < attempts ==> !present[i]
    {
      checks := checks + 1;
      if present[attempts] {
        found := true;
        break;
      }
      waits := waits + 1;
      waited := waited + PollInterval;
      attempts := attempts + 1;
    }
    reportedFailure := attempts == MaxPollAttempts;
  }
}

=== FILE: seed_text.dfy ===
/** The seed field of the form: the browser shows `String(seed)` and an edit stores
    `parseInt(text) || 0`, with ECMAScript's `parseInt` called without a radix. */
module SeedText {
  import opened Wrappers

  /** ECMAScript white space and line terminators, which `parseInt` skips at the front. */
  predicate IsSpace(c: char)
  {
    || c == '\t' || c == '\n' || c == '\U{000B}' || c == '\U{000C}' || c == '\r' || c == ' '
    || c == '\U{00A0}' || c == '\U{1680}' || ('\U{2000}' <= c <= '\U{200A}')
    || c == '\U{2028}' || c == '\U{2029}' || c == '\U{202F}' || c == '\U{205F}'
    || c == '\U{3000}' || c == '\U{FEFF}'
  }

  predicate IsDigit(c: char)
  {
    '0' <= c <= '9'
  }

  /** A digit of radix 10 or, for any other radix value, of radix 16. */
  predicate IsRadixDigit(c: char, hex: bool)
  {
    IsDigit(c) || (hex && ('a' <= c <= 'f' || 'A' <= c <= 'F'))
  }

  function DigitValue(c: char, hex: bool): (d: nat)
    requires IsRadixDigit(c, hex)
    ensures d < (if hex then 16 else 10)
  {
    if IsDigit(c) then (c as int) - ('0' as int)
    else if 'a' <= c <= 'f' then (c as int) - ('a' as int) + 10
    else (c as int) - ('A' as int) + 10
  }

  /** The text after the leading white space. */
  function TrimStart(t: string): (u: string)
    ensures |u| <= |t| && u == t[|t| - |u|..]
    ensures |u| == 0 || !IsSpace(u[0])
  {
    if |t| > 0 && IsSpace(t[0]) then TrimStart(t[1..]) else t
  }

  /** Length of the longest prefix of `t` made of digits. */
  function DigitRun(t: string, hex: bool): (n: nat)
    ensures n <= |t|
    ensures forall k :: 0 <= k < n ==> IsRadixDigit(t[k], hex)
    ensures n == |t| || !IsRadixDigit(t[n], hex)
  {
    if |t| > 0 && IsRadixDigit(t[0], hex) then 1 + DigitRun(t[1..], hex) else 0
  }

  /** The number a string of digits denotes, most significant digit first. */
  function Value(d: string, hex: bool): nat
    requires forall k :: 0 <= k < |d| ==> IsRadixDigit(d[k], hex)
  {
    if |d| == 0 then 0
    else Value(d[..|d| - 1], hex) * (if hex then 16 else 10) + DigitValue(d[|d| - 1], hex)
  }

  /** Whether the text (after any sign) starts with the `0x` or `0X` of a hexadecimal literal. */
  predicate HasHexPrefix(v: string)
  {
    |v| >= 2 && v[0] == '0' && (v[1] == 'x' || v[1] == 'X')
  }

  /** The magnitude read from the text after the sign: a `0x` prefix selects radix 16,
      and the longest run of digits that follows is read; no digit at all gives NaN. */
  function ParseMagnitude(v: string): Option<nat>
  {
    var hex := HasHexPrefix(v);
    var w := if hex then v[2..] else v;
    var n := DigitRun(w, hex);
    if n == 0 then None else Some(Value(w[..n], hex))
  }

  /** ECMAScript `parseInt(text)` without a radix; `None` stands for NaN. Leading white space
      and then one sign are skipped before the magnitude is read. */
  function ParseInt(text: string): Option<int>
  {
    ParseSigned(TrimStart(text))
  }

  /** `parseInt` of a text that starts with no white space. */
  function ParseSigned(u: string): Option<int>
  {
    var v := if |u| > 0 && (u[0] == '-' || u[0] == '+') then u[1..] else u;
    match ParseMagnitude(v)
    case None => None
    case Some(m) => Some(if |u| > 0 && u[0] == '-' then -(m as int) else m)
  }

  /** The seed an edit of the field stores: `parseInt(text) || 0`. */
  function SeedFromText(text: string): int
  {
    match ParseInt(text)
    case None => 0
    case Some(v) => v
  }

  /** The decimal digits of a natural number, as `String` prints them. */
  function NatText(m: nat): (d: string)
    ensures |d| >= 1
    ensures forall k :: 0 <= k < |d| ==> IsDigit(d[k])
  {
    if m < 10 then [('0' as int + m) as char]
    else NatText(m / 10) + [('0' as int + m % 10) as char]
  }

  /** `String(n)` for an integer-valued number of magnitude below 10^21; from 10^21 on,
      `String` switches to exponent notation (`"1e+21"`). */
  function IntText(n: int): string
  {
    if n < 0 then "-" + NatText(-n) else NatText(n)
  }

  lemma {:induction false} ValueOfNatText(m: nat)
    ensures Value(NatText(m), false) == m
    decreases m
  {
    var d := NatText(m);
    if m >= 10 {
      ValueOfNatText(m / 10);
      assert d[..|d| - 1] == NatText(m / 10);
    }
  }

  /** A run of decimal digits followed by a non-digit is read as that number. */
  lemma {:induction false} MagnitudeOfDigits(d: string, rest: string)
    requires |d| >= 1 && forall k :: 0 <= k < |d| ==> IsDigit(d[k])
    requires |rest| == 0 || !IsDigit(rest[0])
    requires !(d == "0" && |rest| > 0 && (rest[0] == 'x' || rest[0] == 'X'))
    ensures ParseMagnitude(d + rest) == Some(Value(d, false))
  {
    var v := d + rest;
    assert !HasHexPrefix(v) by {
      if |d| >= 2 {
        assert v[1] == d[1];
      } else if |rest| > 0 {
        assert v[1] == rest[0];
      }
    }
    DigitRunOfDigits(d, rest);
    assert v[..|d|] == d;
  }

  /** The bound below which `String` prints an integer in plain decimal digits. */
  const ExponentThreshold: int := 1_000_000_000_000_000_000_000

  /** Reading the number the field displays gives back the stored seed, for every integer
      `String` prints without an exponent. */
  lemma SeedTextRoundTrip(n: int)
    requires -ExponentThreshold < n < ExponentThreshold
    ensures SeedFromText(IntText(n)) == n
  {
    var t := IntText(n);
    var d := NatText(if n < 0 then -n else n);
    assert !IsSpace(t[0]);
    assert TrimStart(t) == t;
    MagnitudeOfDigits(d, "");
    assert d + "" == d;
    ValueOfNatText(if n < 0 then -n else n);
    if n < 0 {
      assert t[1..] == d;
    }
  }

  /** Trimming keeps a digit-free text digit-free: its characters are the text's own. */
  lemma {:induction false} TrimStartKeepsNoDigit(text: string)
    requires forall k :: 0 <= k < |text| ==> !IsDigit(text[k])
    ensures forall k :: 0 <= k < |TrimStart(text)| ==> !IsDigit(TrimStart(text)[k])
    decreases |text|
  {
    if |text| > 0 && IsSpace(text[0]) {
      var tail := text[1..];
      assert forall k :: 0 <= k < |tail| ==> !IsDigit(tail[k]) by {
        forall k | 0 <= k < |tail| ensures !IsDigit(tail[k]) {
          assert tail[k] == text[k + 1];
        }
      }
      TrimStartKeepsNoDigit(tail);
    }
  }

  /** An edit whose text, after white space, holds no digit at all (the empty text a number
      field reports for unparsable input among them) parses to NaN and so stores 0. */
  lemma {:induction false} NoDigitsGivesZero(text: string)
    requires forall k :: 0 <= k < |text| ==> !IsDigit(text[k])
    ensures ParseInt(text).None?
    ensures SeedFromText(text) == 0
  {
    var u := TrimStart(text);
    TrimStartKeepsNoDigit(text);
    var v := if |u| > 0 && (u[0] == '-' || u[0] == '+') then u[1..] else u;
    assert |v| == 0 || !IsDigit(v[0]);
    assert !HasHexPrefix(v);
    assert ParseMagnitude(v).None?;
  }

  /** Leading white space is dropped up to the first other character. */
  lemma {:induction false} TrimSpaces(ws: string, t: string)
    requires forall k :: 0 <= k < |ws| ==> IsSpace(ws[k])
    requires |t| == 0 || !IsSpace(t[0])
    ensures TrimStart(ws + t) == t
    decreases |ws|
  {
    if |ws| > 0 {
      assert (ws + t)[1..] == ws[1..] + t;
      TrimSpaces(ws[1..], t);
    }
  }

  /** Without a sign the magnitude is the value read. */
  lemma ParseUnsigned(v: string)
    requires |v| == 0 || IsDigit(v[0])
    ensures ParseSigned(v) == match ParseMagnitude(v) case None => None case Some(m) => Some(m as int)
  {
  }

  /** A minus sign negates the magnitude read after it. */
  lemma ParseNegative(v: string)
    ensures ParseSigned("-" + v) == match ParseMagnitude(v) case None => None case Some(m) => Some(-(m as int))
  {
    assert ("-" + v)[1..] == v;
  }

  /** The leading decimal integer of the text is stored, after white space. */
  lemma {:induction false} LeadingIntegerIsStored(ws: string, d: string, rest: string)
    requires forall k :: 0 <= k < |ws| ==> IsSpace(ws[k])
    requires |d| >= 1 && forall k :: 0 <= k < |d| ==> IsDigit(d[k])
    requires |rest| == 0 || !IsDigit(rest[0])
    requires !(d == "0" && |rest| > 0 && (rest[0] == 'x' || rest[0] == 'X'))
    ensures SeedFromText(ws + (d + rest)) == Value(d, false)
  {
    var v := d + rest;
    MagnitudeOfDigits(d, rest);
    assert v[0] == d[0];
    TrimSpaces(ws, v);
    ParseUnsigned(v);
  }

  /** The same with a minus sign: the negated integer is stored. */
  lemma {:induction false} LeadingNegativeIntegerIsStored(ws: string, d: string, rest: string)
    requires forall k :: 0 <= k < |ws| ==> IsSpace(ws[k])
    requires |d| >= 1 && forall k :: 0 <= k < |d| ==> IsDigit(d[k])
    requires |rest| == 0 || !IsDigit(rest[0])
    requires !(d == "0" && |rest| > 0 && (rest[0] == 'x' || rest[0] == 'X'))
    ensures SeedFromText(ws + ("-" + (d + rest))) == -(Value(d, false) as int)
  {
    var v := d + rest;
    MagnitudeOfDigits(d, rest);
    TrimSpaces(ws, "-" + v);
    ParseNegative(v);
  }

  /** The digit run of `d + rest` is exactly `d` when `rest` does not start with a digit. */
  lemma {:induction false} DigitRunOfDigits(d: string, rest: string)
    requires forall k :: 0 <= k < |d| ==> IsDigit(d[k])
    requires |rest| == 0 || !IsDigit(rest[0])
    ensures DigitRun(d + rest, false) == |d|
  {
    var n := DigitRun(d + rest, false);
    assert forall k :: 0 <= k < |d| ==> IsRadixDigit((d + rest)[k], false);
    if |d| < |d + rest| {
      assert (d + rest)[|d|] == rest[0];
    }
  }
}

=== FILE: server.dfy ===
/** The FastAPI backend of api/server.py: data URI decoding, the two try-on endpoints,
    their form defaults, the mapping from raised exceptions to HTTP statuses, and the
    load-once model guard. Base64 coding, image opening, inference and the clock are
    parameters: `decode`, `open`, `infer` and `encode` stand for those library calls,
    and `describe` for Python's `str(e)` of a raised exception. */
module Server {
  import opened Wrappers
  import DataUri
  import Multipart

  /** The four generation settings a request carries. */
  datatype Settings = Settings(guidanceScale: real, numInferenceSteps: int, seed: int, refAcceleration: bool)

  /** Field defaults of the `TryOnRequest` body model. */
  const TryOnRequestDefaults: Settings := Settings(2.5, 30, 42, false)

  /** `Form(...)` defaults of the `/try-on/upload` endpoint. */
  const UploadFormDefaults: Settings := Settings(2.5, 30, 42, false)

  /** The fields the `TryOnRequest` body model declares, in declaration order. */
  const TryOnRequestFields: seq<string> :=
    ["human_image", "garment_image", "guidance_scale", "num_inference_steps", "seed", "ref_acceleration"]

  /** The form parameters `/try-on/upload` declares, in declaration order. */
  const UploadFormFields: seq<string> :=
    ["human_image", "garment_image", "guidance_scale", "num_inference_steps", "seed", "ref_acceleration"]

  /** What a handler raises: an `HTTPException`, FastAPI's request validation error, or
      any other exception. */
  datatype Fault =
    | HttpFault(status: int, detail: string)
    | ValidationFault(field: string)
    | RuntimeFault(message: string)

  /** The HTTP status the client sees for a fault. */
  function StatusOf(f: Fault): int
  {
    match f
    case HttpFault(status, _) => status
    case ValidationFault(_) => 422
    case RuntimeFault(_) => 500
  }

  /** The exception `decode_base64_image` raises for undecodable input. */
  const InvalidImage: Fault := HttpFault(400, "Invalid image data")

  /** `decode_base64_image`: strip a data URI prefix, then decode; any failure of the
      decoder becomes the 400 fault. */
  function DecodeBase64Image<Img>(encoded: string, decode: string -> Option<Img>): (r: Result<Img, Fault>)
    ensures r.Failure? ==> r.error == InvalidImage && StatusOf(r.error) == 400
    ensures r.Success? <==> decode(DataUri.Payload(encoded)).Some?
    ensures r.Success? ==> r.value == decode(DataUri.Payload(encoded)).value
  {
    match decode(DataUri.Payload(encoded))
    case Some(img) => Success(img)
    case None => Failure(InvalidImage)
  }

  /** A data URI and its bare base64 body decode to the same image. */
  lemma DecodeIgnoresJpegPrefix<Img>(body: string, decode: string -> Option<Img>)
    requires DataUri.IsBase64(body)
    ensures DecodeBase64Image(DataUri.JpegUri(body), decode) == DecodeBase64Image(body, decode)
  {
    DataUri.Base64RoundTrip(body);
  }

  /** A generated image and the seconds it took. */
  datatype Generated<Img> = Generated(image: Img, processingTime: real)

  /** `virtual_try_on`: run inference; any failure of it is re-raised as a 500 whose detail
      starts with "Error during virtual try-on: ". */
  function VirtualTryOn<Img>(human: Img, garment: Img, settings: Settings,
                             infer: (Img, Img, Settings) -> Result<Generated<Img>, string>): (r: Result<Generated<Img>, Fault>)
    ensures r.Success? <==> infer(human, garment, settings).Success?
    ensures r.Success? ==> r.value == infer(human, garment, settings).value
    ensures r.Failure? ==>
      && r.error.HttpFault? && r.error.status == 500
      && r.error.detail == "Error during virtual try-on: " + infer(human, garment, settings).error
  {
    match infer(human, garment, settings)
    case Success(g) => Success(g)
    case Failure(message) => Failure(HttpFault(500, "Error during virtual try-on: " + message))
  }

  /** The body of `/try-on`. */
  datatype TryOnRequest = TryOnRequest(humanImage: string, garmentImage: string, settings: Settings)

  /** A successful reply of either endpoint. */
  datatype TryOnResponse = TryOnResponse(resultImage: string, processingTime: real)

  /** JSON values of a reply body. */
  datatype Json = JString(s: string) | JNumber(n: real)

  /** The JSON object a successful reply serialises to. */
  function ResponseBody(r: TryOnResponse): (body: map<string, Json>)
    ensures body.Keys == {"result_image", "processing_time"}
    ensures body["result_image"] == JString(r.resultImage)
    ensures body["processing_time"] == JNumber(r.processingTime)
  {
    map["result_image" := JString(r.resultImage), "processing_time" := JNumber(r.processingTime)]
  }

  /** The blanket `except Exception as e: raise HTTPException(500, str(e))` of both endpoints. */
  function AsServerError<T>(r: Result<T, Fault>, describe: Fault -> string): (r': Result<T, Fault>)
    ensures r.Success? ==> r' == r
    ensures r.Failure? ==> r' == Failure(HttpFault(500, describe(r.error)))
  {
    match r
    case Success(v) => Success(v)
    case Failure(e) => Failure(HttpFault(500, describe(e)))
  }

  /** Encoding the result to base64 JPEG text, which fails for instance on images with alpha. */
  function Encode<Img>(img: Img, encode: Img -> Result<string, string>): Result<string, Fault>
  {
    match encode(img)
    case Success(body) => Success(body)
    case Failure(message) => Failure(RuntimeFault(message))
  }

  /** The steps inside the `try` of `/try-on`, up to the first fault raised. */
  function TryOnSteps<Img>(req: TryOnRequest, decode: string -> Option<Img>,
                           infer: (Img, Img, Settings) -> Result<Generated<Img>, string>,
                           encode: Img -> Result<string, string>): Result<TryOnResponse, Fault>
  {
    match DecodeBase64Image(req.humanImage, decode)
    case Failure(e) => Failure(e)
    case Success(human) =>
      match DecodeBase64Image(req.garmentImage, decode)
      case Failure(e) => Failure(e)
      case Success(garment) =>
        match VirtualTryOn(human, garment, req.settings, infer)
        case Failure(e) => Failure(e)
        case Success(gen) =>
          match Encode(gen.image, encode)
          case Failure(e) => Failure(e)
          case Success(body) => Success(TryOnResponse(DataUri.JpegUri(body), gen.processingTime))
  }

  /** Both images of a `/try-on` request decode. */
  predicate Decodable<Img>(req: TryOnRequest, decode: string -> Option<Img>)
  {
    decode(DataUri.Payload(req.humanImage)).Some? && decode(DataUri.Payload(req.garmentImage)).Some?
  }

  /** What inference returns for the decoded images of a request. */
  function Inferred<Img>(req: TryOnRequest, decode: string -> Option<Img>,
                         infer: (Img, Img, Settings) -> Result<Generated<Img>, string>): Result<Generated<Img>, string>
    requires Decodable(req, decode)
  {
    infer(decode(DataUri.Payload(req.humanImage)).value, decode(DataUri.Payload(req.garmentImage)).value, req.settings)
  }

  /** `/try-on` as written, once the body has been validated: every fault raised inside the
      handler, the 400 of an undecodable image included, is answered as a 500 whose detail
      is `str` of that fault; when every step succeeds the reply is the encoder's body as a
      JPEG data URI together with the time inference reported. */
  function TryOn<Img>(req: TryOnRequest, decode: string -> Option<Img>,
                      infer: (Img, Img, Settings) -> Result<Generated<Img>, string>,
                      encode: Img -> Result<string, string>, describe: Fault -> string): (r: Result<TryOnResponse, Fault>)
    ensures r.Failure? ==> r.error.HttpFault? && StatusOf(r.error) == 500
    ensures !Decodable(req, decode) ==> r == Failure(HttpFault(500, describe(InvalidImage)))
    ensures r.Success? ==> Decodable(req, decode)
    ensures Decodable(req, decode) ==>
      var gen := Inferred(req, decode, infer);
      && (gen.Failure? ==>
            r == Failure(HttpFault(500, describe(HttpFault(500, "Error during virtual try-on: " + gen.error)))))
      && (gen.Success? && encode(gen.value.image).Failure? ==>
            r == Failure(HttpFault(500, describe(RuntimeFault(encode(gen.value.image).error)))))
      && (gen.Success? && encode(gen.value.image).Success? ==>
            r == Success(TryOnResponse(DataUri.JpegUri(encode(gen.value.image).value), gen.value.processingTime)))
  {
    AsServerError(TryOnSteps(req, decode, infer, encode), describe)
  }

  /** `/try-on` with the `HTTPException` raised by the decoder passed through unchanged
      (an `except HTTPException: raise` ahead of the blanket handler). */
  function TryOnPassingHttpFaults<Img>(req: TryOnRequest, decode: string -> Option<Img>,
                                       infer: (Img, Img, Settings) -> Result<Generated<Img>, string>,
                                       encode: Img -> Result<string, string>, describe: Fault -> string): (r: Result<TryOnResponse, Fault>)
    ensures !Decodable(req, decode) ==> r == Failure(InvalidImage)
    ensures r.Failure? ==> r.error.HttpFault? && (StatusOf(r.error) == 400 <==> r.error == InvalidImage)
    ensures r.Failure? && r.error != InvalidImage ==> StatusOf(r.error) == 500
    ensures r.Success? <==> TryOn(req, decode, infer, encode, describe).Success?
    ensures r.Success? ==> r == TryOn(req, decode, infer, encode, describe)
  {
    match TryOnSteps(req, decode, infer, encode)
    case Success(v) => Success(v)
    case Failure(e) =>
      if e.HttpFault? then Failure(e)
      else Failure(HttpFault(500, describe(e)))
  }

  /** As written, `/try-on` never answers 400: an undecodable image, the person's or the
      garment's, is reported as a 500. */
  lemma TryOnNeverAnswers400<Img>(req: TryOnRequest, decode: string -> Option<Img>,
                                  infer: (Img, Img, Settings) -> Result<Generated<Img>, string>,
                                  encode: Img -> Result<string, string>, describe: Fault -> string)
    requires decode(DataUri.Payload(req.humanImage)).None? || decode(DataUri.Payload(req.garmentImage)).None?
    ensures StatusOf(TryOn(req, decode, infer, encode, describe).error) == 500
    ensures StatusOf(TryOnPassingHttpFaults(req, decode, infer, encode, describe).error) == 400
  {
  }

  /** What `/try-on/upload` receives once FastAPI has validated the form. */
  datatype Upload = Upload(human: Multipart.File, garment: Multipart.File, settings: Settings)

  /** The kinds of value a declared parameter accepts: a required file (`UploadFile`), a
      required text (`str`), and optional float, int and bool parameters, where a float
      parameter also takes an integer. */
  predicate FileOk(v: Option<Multipart.Value>) { v.Some? && v.value.FileValue? }
  predicate TextOk(v: Option<Multipart.Value>) { v.Some? && v.value.TextValue? }
  predicate RealOk(v: Option<Multipart.Value>) { v.None? || v.value.RealValue? || v.value.IntValue? }
  predicate IntOk(v: Option<Multipart.Value>) { v.None? || v.value.IntValue? }
  predicate BoolOk(v: Option<Multipart.Value>) { v.None? || v.value.BoolValue? }

  /** Each of the four settings is absent or of its declared kind. */
  predicate SettingsAccepted(form: Multipart.Form)
  {
    && RealOk(Multipart.Lookup(form, "guidance_scale"))
    && IntOk(Multipart.Lookup(form, "num_inference_steps"))
    && IntOk(Multipart.Lookup(form, "seed"))
    && BoolOk(Multipart.Lookup(form, "ref_acceleration"))
  }

  /** A required file parameter (`File(...)`). */
  function FileParam(form: Multipart.Form, name: string): Result<Multipart.File, Fault>
  {
    match Multipart.Lookup(form, name)
    case Some(FileValue(f)) => Success(f)
    case _ => Failure(ValidationFault(name))
  }

  /** A required text field. */
  function TextParam(form: Multipart.Form, name: string): Result<string, Fault>
  {
    match Multipart.Lookup(form, name)
    case Some(TextValue(t)) => Success(t)
    case _ => Failure(ValidationFault(name))
  }

  /** An optional float parameter; an integer is accepted as a float. */
  function RealParam(form: Multipart.Form, name: string, default: real): Result<real, Fault>
  {
    match Multipart.Lookup(form, name)
    case None => Success(default)
    case Some(RealValue(x)) => Success(x)
    case Some(IntValue(i)) => Success(i as real)
    case Some(_) => Failure(ValidationFault(name))
  }

  /** An optional integer parameter. */
  function IntParam(form: Multipart.Form, name: string, default: int): Result<int, Fault>
  {
    match Multipart.Lookup(form, name)
    case None => Success(default)
    case Some(IntValue(i)) => Success(i)
    case Some(_) => Failure(ValidationFault(name))
  }

  /** An optional boolean parameter. */
  function BoolParam(form: Multipart.Form, name: string, default: bool): Result<bool, Fault>
  {
    match Multipart.Lookup(form, name)
    case None => Success(default)
    case Some(BoolValue(b)) => Success(b)
    case Some(_) => Failure(ValidationFault(name))
  }

  /** The four settings as both endpoints declare them: each falls back to its default when
      absent, is read as given when of its kind, and otherwise is a validation error naming
      the first offending setting in declaration order. */
  function ParseSettings(form: Multipart.Form, defaults: Settings): (r: Result<Settings, Fault>)
    ensures r.Success? <==> SettingsAccepted(form)
    ensures !RealOk(Multipart.Lookup(form, "guidance_scale")) ==>
      r == Failure(ValidationFault("guidance_scale"))
    ensures (RealOk(Multipart.Lookup(form, "guidance_scale"))
             && !IntOk(Multipart.Lookup(form, "num_inference_steps"))) ==>
      r == Failure(ValidationFault("num_inference_steps"))
    ensures (RealOk(Multipart.Lookup(form, "guidance_scale"))
             && IntOk(Multipart.Lookup(form, "num_inference_steps"))
             && !IntOk(Multipart.Lookup(form, "seed"))) ==>
      r == Failure(ValidationFault("seed"))
    ensures (RealOk(Multipart.Lookup(form, "guidance_scale"))
             && IntOk(Multipart.Lookup(form, "num_inference_steps"))
             && IntOk(Multipart.Lookup(form, "seed"))
             && !BoolOk(Multipart.Lookup(form, "ref_acceleration"))) ==>
      r == Failure(ValidationFault("ref_acceleration"))
    ensures r.Success? && "guidance_scale" !in Multipart.Names(form) ==>
      r.value.guidanceScale == defaults.guidanceScale
    ensures r.Success? && "num_inference_steps" !in Multipart.Names(form) ==>
      r.value.numInferenceSteps == defaults.numInferenceSteps
    ensures r.Success? && "seed" !in Multipart.Names(form) ==>
      r.value.seed == defaults.seed
    ensures r.Success? && "ref_acceleration" !in Multipart.Names(form) ==>
      r.value.refAcceleration == defaults.refAcceleration
    ensures forall x :: Multipart.Lookup(form, "guidance_scale") == Some(Multipart.RealValue(x)) && r.Success? ==>
      r.value.guidanceScale == x
    ensures forall n :: Multipart.Lookup(form, "guidance_scale") == Some(Multipart.IntValue(n)) && r.Success? ==>
      r.value.guidanceScale == n as real
    ensures forall n :: Multipart.Lookup(form, "num_inference_steps") == Some(Multipart.IntValue(n)) && r.Success? ==>
      r.value.numInferenceSteps == n
    ensures forall n :: Multipart.Lookup(form, "seed") == Some(Multipart.IntValue(n)) && r.Success? ==>
      r.value.seed == n
    ensures forall b :: Multipart.Lookup(form, "ref_acceleration") == Some(Multipart.BoolValue(b)) && r.Success? ==>
      r.value.refAcceleration == b
  {
    match RealParam(form, "guidance_scale", defaults.guidanceScale)
    case Failure(e) => Failure(e)
    case Success(scale) =>
      match IntParam(form, "num_inference_steps", defaults.numInferenceSteps)
      case Failure(e) => Failure(e)
      case Success(steps) =>
        match IntParam(form, "seed", defaults.seed)
        case Failure(e) => Failure(e)
        case Success(seed) =>
          match BoolParam(form, "ref_acceleration", defaults.refAcceleration)
          case Failure(e) => Failure(e)
          case Success(accel) => Success(Settings(scale, steps, seed, accel))
  }

  /** FastAPI's reading of the `/try-on/upload` form: both files are required and checked
      first, in declaration order, then the settings with their `Form(...)` defaults. */
  function ParseUploadForm(form: Multipart.Form): (r: Result<Upload, Fault>)
    ensures r.Success? <==>
      FileOk(Multipart.Lookup(form, "human_image")) && FileOk(Multipart.Lookup(form, "garment_image"))
      && SettingsAccepted(form)
    ensures r.Failure? ==> r.error.ValidationFault? && r.error.field in UploadFormFields
    ensures !FileOk(Multipart.Lookup(form, "human_image")) ==> r == Failure(ValidationFault("human_image"))
    ensures FileOk(Multipart.Lookup(form, "human_image")) && !FileOk(Multipart.Lookup(form, "garment_image")) ==>
      r == Failure(ValidationFault("garment_image"))
    ensures (FileOk(Multipart.Lookup(form, "human_image")) && FileOk(Multipart.Lookup(form, "garment_image"))
             && !SettingsAccepted(form)) ==>
      r == Failure(ParseSettings(form, UploadFormDefaults).error)
    ensures r.Success? ==>
      && Multipart.Lookup(form, "human_image") == Some(Multipart.FileValue(r.value.human))
      && Multipart.Lookup(form, "garment_image") == Some(Multipart.FileValue(r.value.garment))
      && r.value.settings == ParseSettings(form, UploadFormDefaults).value
  {
    match FileParam(form, "human_image")
    case Failure(e) => Failure(e)
    case Success(human) =>
      match FileParam(form, "garment_image")
      case Failure(e) => Failure(e)
      case Success(garment) =>
        match ParseSettings(form, UploadFormDefaults)
        case Failure(e) => Failure(e)
        case Success(settings) => Success(Upload(human, garment, settings))
  }

  /** A form whose six parameters are present with values of the declared kinds is read
      as exactly those values. */
  lemma ParseWellTypedForm(form: Multipart.Form, human: Multipart.File, garment: Multipart.File, settings: Settings)
    requires Multipart.Lookup(form, "human_image") == Some(Multipart.FileValue(human))
    requires Multipart.Lookup(form, "garment_image") == Some(Multipart.FileValue(garment))
    requires Multipart.Lookup(form, "guidance_scale") == Some(Multipart.RealValue(settings.guidanceScale))
    requires Multipart.Lookup(form, "num_inference_steps") == Some(Multipart.IntValue(settings.numInferenceSteps))
    requires Multipart.Lookup(form, "seed") == Some(Multipart.IntValue(settings.seed))
    requires Multipart.Lookup(form, "ref_acceleration") == Some(Multipart.BoolValue(settings.refAcceleration))
    ensures ParseUploadForm(form) == Success(Upload(human, garment, settings))
  {
    assert ParseSettings(form, UploadFormDefaults) == Success(settings);
  }

  /** A form carrying only the two files is read with every setting at its `Form` default. */
  lemma FilesOnlyTakeDefaults(human: Multipart.File, garment: Multipart.File)
    ensures ParseUploadForm([Multipart.Field("human_image", Multipart.FileValue(human)),
                             Multipart.Field("garment_image", Multipart.FileValue(garment))])
         == Success(Upload(human, garment, UploadFormDefaults))
  {
    var form := [Multipart.Field("human_image", Multipart.FileValue(human)),
                 Multipart.Field("garment_image", Multipart.FileValue(garment))];
    assert Multipart.Names(form) == ["human_image", "garment_image"];
    assert Multipart.Lookup(form, "human_image") == Some(Multipart.FileValue(human));
    assert Multipart.Lookup(form, "garment_image") == Some(Multipart.FileValue(garment));
  }

  /** Pydantic's reading of the `/try-on` JSON body into `TryOnRequest`: both images are
      required texts, the settings take the model's field defaults. */
  function ParseTryOnBody(body: Multipart.JsonObject): (r: Result<TryOnRequest, Fault>)
    ensures r.Success? <==>
      TextOk(Multipart.Lookup(body, "human_image")) && TextOk(Multipart.Lookup(body, "garment_image"))
      && SettingsAccepted(body)
    ensures r.Failure? ==> r.error.ValidationFault? && r.error.field in TryOnRequestFields
    ensures !TextOk(Multipart.Lookup(body, "human_image")) ==> r == Failure(ValidationFault("human_image"))
    ensures TextOk(Multipart.Lookup(body, "human_image")) && !TextOk(Multipart.Lookup(body, "garment_image")) ==>
      r == Failure(ValidationFault("garment_image"))
    ensures (TextOk(Multipart.Lookup(body, "human_image")) && TextOk(Multipart.Lookup(body, "garment_image"))
             && !SettingsAccepted(body)) ==>
      r == Failure(ParseSettings(body, TryOnRequestDefaults).error)
    ensures r.Success? ==>
      && Multipart.Lookup(body, "human_image") == Some(Multipart.TextValue(r.value.humanImage))
      && Multipart.Lookup(body, "garment_image") == Some(Multipart.TextValue(r.value.garmentImage))
      && r.value.settings == ParseSettings(body, TryOnRequestDefaults).value
  {
    match TextParam(body, "human_image")
    case Failure(e) => Failure(e)
    case Success(human) =>
      match TextParam(body, "garment_image")
      case Failure(e) => Failure(e)
      case Success(garment) =>
        match ParseSettings(body, TryOnRequestDefaults)
        case Failure(e) => Failure(e)
        case Success(settings) => Success(TryOnRequest(human, garment, settings))
  }

  /** A body carrying only the two images is read with every setting at its field default. */
  lemma ImagesOnlyTakeDefaults(human: string, garment: string)
    ensures ParseTryOnBody([Multipart.Field("human_image", Multipart.TextValue(human)),
                            Multipart.Field("garment_image", Multipart.TextValue(garment))])
         == Success(TryOnRequest(human, garment, TryOnRequestDefaults))
  {
    var body := [Multipart.Field("human_image", Multipart.TextValue(human)),
                 Multipart.Field("garment_image", Multipart.TextValue(garment))];
    assert Multipart.Names(body) == ["human_image", "garment_image"];
    assert Multipart.Lookup(body, "human_image") == Some(Multipart.TextValue(human));
    assert Multipart.Lookup(body, "garment_image") == Some(Multipart.TextValue(garment));
  }

  /** `POST /try-on`: a body that fails validation is refused with 422 before the handler
      runs; a valid one gets the handler's answer. */
  function TryOnEndpoint<Img>(body: Multipart.JsonObject, decode: string -> Option<Img>,
                              infer: (Img, Img, Settings) -> Result<Generated<Img>, string>,
                              encode: Img -> Result<string, string>, describe: Fault -> string): (r: Result<TryOnResponse, Fault>)
    ensures r.Failure? ==> (StatusOf(r.error) == 422 <==> ParseTryOnBody(body).Failure?)
    ensures r.Failure? ==> StatusOf(r.error) == 422 || StatusOf(r.error) == 500
    ensures ParseTryOnBody(body).Failure? ==> r == Failure(ParseTryOnBody(body).error)
    ensures ParseTryOnBody(body).Success? ==> r == TryOn(ParseTryOnBody(body).value, decode, infer, encode, describe)
  {
    match ParseTryOnBody(body)
    case Failure(e) => Failure(e)
    case Success(req) => TryOn(req, decode, infer, encode, describe)
  }

  /** `save_uploaded_file`: writing an upload to a temporary file, giving its path. */
  function Save(f: Multipart.File, save: Multipart.File -> Result<string, string>): Result<string, Fault>
  {
    match save(f)
    case Success(path) => Success(path)
    case Failure(message) => Failure(RuntimeFault(message))
  }

  /** `Image.open` of a saved file. */
  function Open<Img>(path: string, open: string -> Result<Img, string>): Result<Img, Fault>
  {
    match open(path)
    case Success(img) => Success(img)
    case Failure(message) => Failure(RuntimeFault(message))
  }

  /** Both uploads were saved and both saved files opened as images. */
  predicate Opened<Img>(u: Upload, save: Multipart.File -> Result<string, string>, open: string -> Result<Img, string>)
  {
    && save(u.human).Success? && save(u.garment).Success?
    && open(save(u.human).value).Success? && open(save(u.garment).value).Success?
  }

  /** What inference returns for the opened images of an upload. */
  function UploadInferred<Img>(u: Upload, save: Multipart.File -> Result<string, string>, open: string -> Result<Img, string>,
                               infer: (Img, Img, Settings) -> Result<Generated<Img>, string>): Result<Generated<Img>, string>
    requires Opened(u, save, open)
  {
    infer(open(save(u.human).value).value, open(save(u.garment).value).value, u.settings)
  }

  /** The steps inside the `try` of `/try-on/upload`, up to the first fault raised: save
      both uploads, then open both saved files, then run inference and encode. */
  function UploadSteps<Img>(u: Upload, save: Multipart.File -> Result<string, string>, open: string -> Result<Img, string>,
                            infer: (Img, Img, Settings) -> Result<Generated<Img>, string>,
                            encode: Img -> Result<string, string>): Result<TryOnResponse, Fault>
  {
    match Save(u.human, save)
    case Failure(e) => Failure(e)
    case Success(humanPath) =>
      match Save(u.garment, save)
      case Failure(e) => Failure(e)
      case Success(garmentPath) =>
        match Open(humanPath, open)
        case Failure(e) => Failure(e)
        case Success(human) =>
          match Open(garmentPath, open)
          case Failure(e) => Failure(e)
          case Success(garment) =>
            match VirtualTryOn(human, garment, u.settings, infer)
            case Failure(e) => Failure(e)
            case Success(gen) =>
              match Encode(gen.image, encode)
              case Failure(e) => Failure(e)
              case Success(body) => Success(TryOnResponse(DataUri.JpegUri(body), gen.processingTime))
  }

  /** `/try-on/upload`: a malformed form is refused with 422 before the handler runs; inside
      the handler every fault becomes a 500, the first one raised in the order save person,
      save garment, open person, open garment; when every step succeeds the reply carries
      the encoder's body as a JPEG data URI and the time inference reported. */
  function TryOnUpload<Img>(form: Multipart.Form, save: Multipart.File -> Result<string, string>,
                            open: string -> Result<Img, string>,
                            infer: (Img, Img, Settings) -> Result<Generated<Img>, string>,
                            encode: Img -> Result<string, string>, describe: Fault -> string): (r: Result<TryOnResponse, Fault>)
    ensures r.Failure? ==> (StatusOf(r.error) == 422 <==> ParseUploadForm(form).Failure?)
    ensures r.Failure? ==> StatusOf(r.error) == 422 || StatusOf(r.error) == 500
    ensures var u := ParseUploadForm(form);
      u.Success? ==>
        && (save(u.value.human).Failure? ==>
              r == Failure(HttpFault(500, describe(RuntimeFault(save(u.value.human).error)))))
        && (save(u.value.human).Success? && save(u.value.garment).Failure? ==>
              r == Failure(HttpFault(500, describe(RuntimeFault(save(u.value.garment).error)))))
        && (save(u.value.human).Success? && save(u.value.garment).Success?
            && open(save(u.value.human).value).Failure? ==>
              r == Failure(HttpFault(500, describe(RuntimeFault(open(save(u.value.human).value).error)))))
        && (save(u.value.human).Success? && save(u.value.garment).Success?
            && open(save(u.value.human).value).Success? && open(save(u.value.garment).value).Failure? ==>
              r == Failure(HttpFault(500, describe(RuntimeFault(open(save(u.value.garment).value).error)))))
    ensures r.Success? ==>
      var u := ParseUploadForm(form);
      && u.Success?
      && Opened(u.value, save, open)
      && var gen := UploadInferred(u.value, save, open, infer);
         && gen.Success?
         && r.value.processingTime == gen.value.processingTime
         && encode(gen.value.image).Success?
         && r.value.resultImage == DataUri.JpegUri(encode(gen.value.image).value)
    ensures var u := ParseUploadForm(form);
      u.Success? && Opened(u.value, save, open) ==>
        var gen := UploadInferred(u.value, save, open, infer);
        gen.Success? && encode(gen.value.image).Success? ==>
          r == Success(TryOnResponse(DataUri.JpegUri(encode(gen.value.image).value), gen.value.processingTime))
  {
    match ParseUploadForm(form)
    case Failure(e) => Failure(e)
    case Success(u) => AsServerError(UploadSteps(u, save, open, infer, encode), describe)
  }

  /** The encoder emits base64 text whenever it succeeds. */
  ghost predicate EmitsBase64<Img(!new)>(encode: Img -> Result<string, string>)
  {
    forall img :: encode(img).Success? ==> DataUri.IsBase64(encode(img).value)
  }

  /** A result image the backend returns, sent back to it, strips to exactly the encoder's
      base64 body. */
  lemma UploadResultDecodesToBody<Img(!new)>(form: Multipart.Form, save: Multipart.File -> Result<string, string>,
                                       open: string -> Result<Img, string>,
                                       infer: (Img, Img, Settings) -> Result<Generated<Img>, string>,
                                       encode: Img -> Result<string, string>, describe: Fault -> string)
    requires EmitsBase64(encode)
    ensures var r := TryOnUpload(form, save, open, infer, encode, describe);
      r.Success? ==>
        var u := ParseUploadForm(form).value;
        var gen := UploadInferred(u, save, open, infer).value;
        && DataUri.IsBase64(DataUri.Payload(r.value.resultImage))
        && DataUri.Payload(r.value.resultImage) == encode(gen.image).value
  {
    var r := TryOnUpload(form, save, open, infer, encode, describe);
    if r.Success? {
      var u := ParseUploadForm(form).value;
      var gen := UploadInferred(u, save, open, infer).value;
      var body := encode(gen.image).value;
      assert DataUri.IsBase64(body);
      DataUri.Base64RoundTrip(body);
    }
  }

  /** The three module globals `load_model` fills in. */
  datatype Globals<M, I, T> = Globals(model: Option<M>, transform: Option<T>, inference: Option<I>)

  /** What the constructors `LeffaModel`, `LeffaInference` and `LeffaTransform` do on this
      call: produce a value, or raise with a message (an import failure counts as the first
      constructor raising). */
  datatype Loader<M, I, T> = Loader(model: Result<M, string>, inference: Result<I, string>, transform: Result<T, string>)

  /** The module state at import time. */
  function Unloaded<M, I, T>(): Globals<M, I, T>
  {
    Globals(None, None, None)
  }

  /** `/health`'s `model_loaded`. */
  predicate ModelLoaded<M, I, T>(g: Globals<M, I, T>)
  {
    g.model.Some?
  }

  function LoadFault(message: string): Fault
  {
    HttpFault(500, "Failed to load model: " + message)
  }

  /** `load_model`: return at once when a model is already set; otherwise assign the model,
      then the inference wrapper, then the transform, stopping with a 500 at the first
      constructor that raises (what was assigned before it stays assigned). */
  function LoadModel<M, I, T>(g: Globals<M, I, T>, l: Loader<M, I, T>): (r: (Globals<M, I, T>, Option<Fault>))
    ensures g.model.Some? ==> r == (g, None)
    ensures g.model.None? ==>
      (r.1.None? <==> l.model.Success? && l.inference.Success? && l.transform.Success?)
    ensures g.model.None? && r.1.None? ==>
      r.0 == Globals(Some(l.model.value), Some(l.transform.value), Some(l.inference.value))
    ensures r.1.Some? ==> StatusOf(r.1.value) == 500 && r.1.value.HttpFault?
    ensures l.model.Failure? ==> r.0 == g
    ensures g.model.None? && l.model.Success? ==> r.0.model == Some(l.model.value)
    ensures g.model.None? && l.model.Success? && l.inference.Success? ==> r.0.inference == Some(l.inference.value)
    ensures r.1.Some? ==> r.0.transform == g.transform
  {
    if g.model.Some? then (g, None)
    else
      match l.model
      case Failure(m) => (g, Some(LoadFault(m)))
      case Success(model) =>
        var g1 := g.(model := Some(model));
        match l.inference
        case Failure(m) => (g1, Some(LoadFault(m)))
        case Success(inference) =>
          var g2 := g1.(inference := Some(inference));
          match l.transform
          case Failure(m) => (g2, Some(LoadFault(m)))
          case Success(transform) => (g2.(transform := Some(transform)), None)
  }

  /** The state after calling `load_model` once per loader, in order. */
  function LoadRepeatedly<M, I, T>(g: Globals<M, I, T>, ls: seq<Loader<M, I, T>>): Globals<M, I, T>
    decreases |ls|
  {
    if |ls| == 0 then g else LoadRepeatedly(LoadModel(g, ls[0]).0, ls[1..])
  }

  /** Once a model is set, any number of further `load_model` calls change nothing. */
  lemma {:induction false} LoadModelIdempotent<M, I, T>(g: Globals<M, I, T>, ls: seq<Loader<M, I, T>>)
    requires ModelLoaded(g)
    ensures LoadRepeatedly(g, ls) == g
    decreases |ls|
  {
    if |ls| > 0 {
      LoadModelIdempotent(g, ls[1..]);
    }
  }

  /** A constructor failing after the model was assigned leaves the model set and the
      pipeline incomplete, and later calls keep it that way while `/health` reports it loaded. */
  lemma PartialLoadSticks<M, I, T>(l: Loader<M, I, T>, later: seq<Loader<M, I, T>>)
    requires l.model.Success? && l.inference.Failure?
    ensures var g := LoadModel(Unloaded<M, I, T>(), l).0;
      && ModelLoaded(g) && g.inference.None?
      && LoadRepeatedly(g, later) == g
  {
    var g := LoadModel(Unloaded<M, I, T>(), l).0;
    LoadModelIdempotent(g, later);
  }
}

=== FILE: wrappers.dfy ===
/** Optional values and results with an error, shared by every module of the model. */
module Wrappers {

  /** A value that may be absent: JavaScript's `null`/`undefined`, Python's `None`. */
  datatype Option<+T> = None | Some(value: T)

  /** The outcome of a call that may raise: the value, or what was raised. */
  datatype Result<+T, +E> = Success(value: T) | Failure(error: E)
}
